=== FILE: README.md ===
# simple-heartbeat in Dafny

A model of the heartbeat protocol between `send_heartbeat` and
`monitor_heartbeat`. Each site periodically sends one UDP datagram of the form
`HEARTBEAT_SITE:<site_id>_TIME:<sec>.<usec>`. The monitor keeps a fixed table
of at most ten configured sites, and for each one the time carried by the
last heartbeat it accepted. The monitor only records times; it never checks
them for staleness.

Modules, one per file:

- `Wrappers` (wrappers.dfy): `Option`.
- `CStrings` (cstrings.dfy): the C string functions the decoder relies on.
  - `CStr` reads a buffer up to its first NUL.
  - `Find` is `strstr`.
  - `FindChar` is `strchr` from a position.
  - `BoundedCopy` is `strncpy` followed by an explicit terminator.
- `Numerals` (numerals.dfy): the numeric formats.
  - `%ld` and `%0<w>ld` as `printf` writes them.
  - `%ld` and `%<w>ld` as `sscanf` reads them. Leading white space is skipped and not counted. The sign counts against the width. At least one digit is required.
- `Wire` (wire.dfy): the heartbeat format.
  - `Encode` is the sender's `snprintf` into 256 bytes.
  - `Decode` is the monitor's parsing block.
  - Also the round-trip and truncation properties.
- `Registry` (registry.dfy): the monitor's site table.
  - Its initialisation from the command line.
  - `lookup_site`.
  - Recording a heartbeat.
- `Errno` (errno.dfy): `EINTR`.
- `Monitor` (monitor.dfy): the receive loop as a step function over `recvfrom` outcomes.
  - The shutdown flag is an input.
  - Runs of several wake-ups.
- `Options` (options.dfy): the range and count checks both programs apply to their command lines.
- `Sender` (sender.dfy): the send loop.
  - A pass is modelled as a sequence of observable actions: transmit, report, sleep.
  - A run is modelled over the clock readings and send outcomes.

Behaviours of the code worth knowing:

- `_TIME:` is searched from the start of the buffer, not after the site marker. A datagram whose time marker comes first is still accepted.
- Microseconds are never range-checked. `%06ld` reads at most six characters, so a decoded `usec` lies in -99999..999999 and may be negative.
- Both ways out of the monitor's loop end with exit status 0. This includes a fatal `recvfrom` error.
- Duplicate site ids on the command line are kept. Only the first copy is ever updated.
- A `sendto` interrupted by a signal restarts the whole pass. The retry therefore carries a fresh timestamp, not the same payload.
- Nothing in the monitor ever sets `time_to_exit`, so the model takes it as an input at every wake-up.
- The decoder truncates an over-long site id instead of rejecting it. The sender, however, never limits the id's length, and where the 255-character payload ends decides what the monitor makes of it:
  - if the cut falls inside an id without `_TIME:`, the heartbeats are always dropped;
  - if it falls inside `_TIME:`, in the seconds, or right after the dot, and the id has no '_', they are always dropped;
  - if it falls after j of the six microsecond digits, and the id has no '_', they are accepted with only those j digits, so the time read is usec / 10^(6-j), a wrong time unless usec is 0. With a 10-digit `tv_sec` this happens for ids of 218 to 222 characters;
  - an id that contains `_TIME:` followed by a valid timestamp can instead be accepted under the part of the id before that marker.

## Model

| member | source | states |
|---|---|---|
| CStrings.CStr | monitor_heartbeat.c:184 | The received bytes read as a C string: the longest NUL-free prefix, ending just before the first NUL if there is one |
| CStrings.Find | monitor_heartbeat.c:186-187 | `strstr`: if it returns an index, the pattern occurs there and at no earlier index; it returns nothing exactly when the pattern occurs nowhere |
| CStrings.FindChar | monitor_heartbeat.c:194 | `strchr`: the first position at or after the start that holds the character, or nothing exactly when there is none |
| CStrings.BoundedCopy | monitor_heartbeat.c:199-200 | `strncpy` of n bytes plus a terminator: a NUL-free prefix of the source string, at most n long, and the whole source string when shorter than n |
| Numerals.FormatLong | send_heartbeat.c:93-94 | `%ld`: a leading '-' exactly for negative values, then digits denoting the magnitude, with no leading zero unless the value is 0 |
| Numerals.FormatPadded | send_heartbeat.c:93-94 | `%0<w>ld`: at least w characters, a '-' exactly for negative values, and digits after it |
| Numerals.FormatPaddedExact | send_heartbeat.c:93-94 | The padded field is exactly w characters iff -10^(w-1) < x < 10^w |
| Numerals.ScanLong | monitor_heartbeat.c:205 | `%<w>ld` stays within the text and succeeds only for a width of at least 1; the value read lies strictly between -10^(w-1) and 10^w |
| Numerals.ScanFormatLong | monitor_heartbeat.c:205 | `%ld` reads back exactly the value and length `%ld` printed, whenever no digit follows |
| Numerals.ScanFormatPadded | monitor_heartbeat.c:205 | `%<w>ld` reads back exactly what `%0<w>ld` printed, whatever follows, for every value whose field is w wide |
| Numerals.ScanLongFails | monitor_heartbeat.c:205 | `%<w>ld` fails iff, after the white space, the width is 0, or the text is empty, or it starts with a sign and the width is 1 or no digit follows the sign, or it starts with neither a sign nor a digit |
| Wire.SiteId | monitor_heartbeat.c:198-200 | A site id as `strncpy` of 63 bytes plus a terminator leaves it: a NUL-free prefix of the source's C string, at most 63 characters, and the whole C string whenever fewer than 63 were kept |
| Wire.SiteIdBetween | monitor_heartbeat.c:193-200 | The decoded id starts right after the site marker. It has no '_' and at most 63 characters. When shorter than 63, it ends exactly at the first '_' |
| Wire.ScanTimestamp | monitor_heartbeat.c:203-207 | `sscanf("%ld.%06ld")` returning 2: the microseconds read lie in -99999..999999 |
| Wire.ScanTimestampFails | monitor_heartbeat.c:205-206 | `sscanf("%ld.%06ld")` does not return 2 iff the seconds do not scan, no '.' follows them directly, or the microseconds after the '.' do not scan |
| Wire.ScanTimestampFields | monitor_heartbeat.c:205 | A timestamp that scans holds the seconds `%ld` reads and the microseconds `%6ld` reads right after the '.' that follows them |
| Wire.TimestampText | monitor_heartbeat.c:197 | The text `sscanf` sees is a prefix of what follows the time marker; the decoder's NUL over the '_' can only shorten it |
| Wire.Decode | monitor_heartbeat.c:184-207 | A decoded site id has no '_' or NUL and at most 63 characters. Decoded microseconds lie in -99999..999999 |
| Wire.DecodeNeedsSiteMarker | monitor_heartbeat.c:186-190 | A datagram in which `HEARTBEAT_SITE:` occurs nowhere is dropped |
| Wire.DecodeNeedsTimeMarker | monitor_heartbeat.c:187-190 | A datagram in which `_TIME:` occurs nowhere is dropped |
| Wire.DecodedSitePrefix | monitor_heartbeat.c:192-200 | A decoded site id is a prefix of the text right after the first `HEARTBEAT_SITE:` |
| Wire.DecodedSiteEnd | monitor_heartbeat.c:194-200 | A decoded site id shorter than 63 characters is followed, right after the first `HEARTBEAT_SITE:`, by the '_' that ended it |
| Wire.DecodeFields | monitor_heartbeat.c:184-207 | Once both markers and the '_' are found, the result is that site id with the scan of the text after `_TIME:`. Positions, id and text may be supplied in any equal form |
| Wire.ReversedDecode | monitor_heartbeat.c:186-207 | `_TIME:<num>HEARTBEAT_SITE:<site>_` decodes to the site's stored id and to whatever everything after `_TIME:` scans as |
| Numerals.ScanLongPrefix | monitor_heartbeat.c:205 | `%ld` never reads past a character that is neither white space, digit nor sign. Cutting the text after such a character changes neither the value nor the length read |
| Numerals.ScanFieldPrefix | monitor_heartbeat.c:205 | After the white space, the sign and digits of `%ld` read alike on any prefix that keeps the character where the scan stops, and never reach past it |
| Numerals.LeadingDigitsStop | monitor_heartbeat.c:205 | The digit run `%ld` reads never extends past a non-digit |
| Wire.ScanTimestampPrefix | monitor_heartbeat.c:205 | `%ld.%06ld` gives the same result on any prefix of the text that keeps a character where both conversions stop |
| Wire.MarkersApart | monitor_heartbeat.c:186-187 | An occurrence of `HEARTBEAT_SITE:` and one of `_TIME:` never overlap |
| Wire.TimestampUncut | monitor_heartbeat.c:194-205 | The NUL written over the '_' that ends the site id never changes what `sscanf` reads after the time marker |
| Wire.DecodeExactly | monitor_heartbeat.c:184-207 | Once both markers and the '_' are found, the result is the site id up to that '_' with whatever the whole text after `_TIME:` scans as; it is dropped iff that text does not scan |
| Wire.BadTimestampDropped | monitor_heartbeat.c:203-206 | A datagram whose text after the first `_TIME:` does not scan as `%ld.%06ld` is dropped |
| Wire.UnterminatedSiteDropped | monitor_heartbeat.c:194-196 | A datagram with no '_' after its first site marker is dropped |
| Wire.TimeMarkerFirstAccepted | monitor_heartbeat.c:187 | `_TIME:<sec>.<usec>HEARTBEAT_SITE:<site>_` is accepted with that site and time, because `_TIME:` is searched from the start of the buffer |
| Wire.Encode | send_heartbeat.c:90-94 | The `snprintf` output: always shorter than the 256-byte buffer, a prefix of the full payload starting with the site marker, the full payload whenever it fits, and the full payload whenever fewer than 255 characters were kept |
| Wire.Payload | send_heartbeat.c:93-94 | The text of `HEARTBEAT_SITE:%s_TIME:%ld.%06ld`: it starts with the site marker and holds no NUL, so `strlen` covers all of it |
| Wire.ScanTimestampOf | monitor_heartbeat.c:205 | `%ld.%06ld` reads back any seconds and any microseconds in -99999..999999 as printed, whatever follows |
| Wire.DecodeLayout | monitor_heartbeat.c:186-207 | `HEARTBEAT_SITE:<site>_TIME:<rest>` with a '_'-free site decodes to the site's stored id and to whatever the C string of rest scans as |
| Wire.DecodeEncode | monitor_heartbeat.c:186-207 | Any untruncated heartbeat for a '_'-free, NUL-free site decodes to the id cut to 63 characters and to the exact timestamp sent, whatever bytes follow it in the datagram |
| Wire.RoundTrip | send_heartbeat.c:93-94 | decode(encode(site, tv)) = (site, tv) for a '_'-free site of at most 63 characters, usec in 0..999999, and a payload that fits |
| Wire.LongSiteIdTruncated | monitor_heartbeat.c:198-200 | A site id of 64 or more characters is not rejected: it arrives as its first 63 characters |
| Wire.OverlongSiteIdDropped | send_heartbeat.c:93-94 | A NUL-free site id without `_TIME:`, so long that the 255-character cut falls inside it, yields a payload the monitor always drops |
| Wire.TimeMarkerCutDropped | send_heartbeat.c:93-94 | For a '_'-free id, a 255-character cut inside `_TIME:` yields a payload the monitor always drops |
| Wire.TimestampCutDecoded | send_heartbeat.c:93-94 | For a '_'-free id, a cut k characters into the numbers yields the stored id with whatever those k characters scan as |
| Wire.SecondsCutDropped | send_heartbeat.c:93-94 | For a '_'-free id, a cut inside the seconds or right after the '.' yields a payload the monitor always drops |
| Wire.UsecCutMisread | send_heartbeat.c:93-94 | For a '_'-free id, a cut after j of the six microsecond digits is accepted with usec / 10^(6-j), a time other than the one sent unless usec is 0 |
| Wire.UsecFieldIsSixDigits | send_heartbeat.c:93-94 | For 0 <= usec <= 999999 the microseconds field is exactly six digits whose value is usec |
| Registry.Init | monitor_heartbeat.c:130-142 | Table size is min(number of site arguments, 10); row k holds argument k cut to 63 characters with time (0,0); later arguments are dropped and duplicates kept |
| Registry.Lookup | monitor_heartbeat.c:25-31 | `lookup_site` returns the least index whose id equals the query, and -1 exactly when no row matches |
| Registry.Record | monitor_heartbeat.c:209-227 | Recording keeps the size and every id. The first row with the heartbeat's site takes its time, and every other row is unchanged |
| Registry.UnknownSiteIgnored | monitor_heartbeat.c:217-227 | A heartbeat from a site the table does not hold leaves the table exactly as it was, never larger |
| Registry.RecordedTimeFound | monitor_heartbeat.c:209-211 | After recording, `lookup_site` still finds the same row, and that row holds the received time |
| Registry.DuplicateNeverUpdated | monitor_heartbeat.c:25-31 | A row whose id repeats an earlier row's id is never updated |
| Registry.RecordTwiceKeepsLast | monitor_heartbeat.c:211 | Recording two heartbeats of one site equals recording only the second |
| Monitor.Stored | monitor_heartbeat.c:170-171 | `recvfrom` with room for 1023 bytes keeps a prefix of the datagram shorter than the buffer: all of it when it fits, and all of it whenever fewer than 1023 bytes were kept |
| Monitor.Step | monitor_heartbeat.c:167-232 | One wake-up exits exactly on an error other than an interruption with the flag clear, always with status 0. Errors leave the table unchanged, and so does a datagram that fails to decode. A datagram that decodes is recorded in the table. Ids and size never change |
| Monitor.Run | monitor_heartbeat.c:167-232 | The receive loop over a sequence of wake-ups: when it exits, it does so with status 0 and only after at least one wake-up |
| Monitor.RunKeepsIds | monitor_heartbeat.c:167-228 | Over any run of wake-ups, the table keeps its size and its ids |
| Monitor.RunExits | monitor_heartbeat.c:172-183 | A run ends iff one of its wake-ups is a non-EINTR error or an EINTR with `time_to_exit` set, and then with status 0 |
| Monitor.SentHeartbeatRecorded | monitor_heartbeat.c:184-211 | A heartbeat formatted by the sender for a '_'-free site of at most 63 characters is recorded against that site with exactly the time it carries |
| Monitor.RecordedTwice | monitor_heartbeat.c:209-211 | Two wake-ups that each record a heartbeat of one known site leave the second time in that site's row |
| Monitor.SecondHeartbeatWins | monitor_heartbeat.c:211 | Two heartbeats of a configured site received in order leave the second one's time in its row |
| Options.MonitorOptions | monitor_heartbeat.c:99-117 | The monitor accepts a command line iff the port is in 1025..65535 and at least one site id follows |
| Options.SenderOptions | send_heartbeat.c:40-64 | The sender accepts a command line iff period > 0, the port is in 1025..65535, and exactly two operands remain (site id, monitor address) |
| Options.DefaultsAccepted | send_heartbeat.c:11-12 | The sender's default period 10 and port 12345, and the monitor's default port 12345 (monitor_heartbeat.c:14), pass both programs' checks |
| Sender.Cycle | send_heartbeat.c:89-104 | A pass transmits the heartbeat for its own clock reading first and then nothing else. It ends after the send iff the send was interrupted; otherwise it ends with a sleep of the period. It reports exactly a non-EINTR failure |
| Sender.Trace | send_heartbeat.c:89-104 | The send loop over a sequence of passes: at least one action per pass, the first being the transmission of the first pass's heartbeat |
| Sender.CycleProjections | send_heartbeat.c:96-103 | A pass transmits one payload. It sleeps once unless interrupted, and reports exactly a non-EINTR errno |
| Sender.EveryPassTransmits | send_heartbeat.c:89-97 | Over any run the loop transmits one heartbeat per pass, the i-th stamped with the i-th clock reading, so no outcome stops it |
| Sender.SleepsFollowCompletedSends | send_heartbeat.c:98-103 | The number of sleeps equals the number of sends that were not interrupted, and every sleep lasts the period |
| Sender.SleepCount | send_heartbeat.c:98-103 | Over any run, the number of sleeps equals the number of passes whose send was not interrupted |
| Sender.SleepLengths | send_heartbeat.c:103 | Over any run, every sleep lasts the configured period |
| Sender.FailuresReported | send_heartbeat.c:98-102 | The errors reported are exactly the non-EINTR send failures, in order |
| Sender.InterruptedSendRetried | send_heartbeat.c:98-100 | After an interrupted send, the next action is the next pass's transmission with its own timestamp, with no sleep between |

## Left out

- Sockets are not modelled: `socket`, `bind`, `inet_pton`, `inet_ntoa` and `htons`. The outcomes of `recvfrom` and `sendto` are inputs, and a setup failure is outside the model.
- Logging is not modelled: `log_message`, `fprintf`, `perror` and `printf`, together with the log file, its time formatting, and the sender's address and port in log lines. All of this is output only.
- `gettimeofday` is not modelled. Each pass's clock reading is an input.
- `sleep` and real timing are not modelled. A sleep is an action that carries its length.
- Option parsing by `getopt_long` and `atoi` is not modelled. On an unknown option both programs print the usage and exit with failure (`usage` ends in `exit(EXIT_FAILURE)`); that path is not modelled. `MonitorOptions` and `SenderOptions` see only the parsed integers and operands.
- Signal handling is not modelled, including `signal(SIGHUP, SIG_IGN)`. `time_to_exit` is an input at every wake-up.
- Integers are unbounded. The 64-bit overflow of `long` in `%ld` and in `tv_sec` is not modelled.
- Monitor.Step: the shutdown itself (closing the socket and log file, then `exit`) is summarised as the exit status.
- Sender.Trace: the endless loop is modelled over any finite sequence of passes. The unreachable `close` and `return 0` after it are not modelled.
- Byte buffers are modelled as `string`, one `char` standing for one byte. The 63-, 255- and 1023-byte cuts therefore count bytes as C does, and `IsSpace` and `IsDigit` are the C-locale character classes.

=== FILE: cstrings.dfy ===
/**
 * The C library string routines the monitor relies on, over `seq<char>`:
 * the string a NUL-terminated buffer holds, `strstr`, `strchr` and the
 * `strncpy`-then-terminate idiom used to bound site identifiers.
 */
module CStrings {
  import opened Wrappers

  const NUL: char := '\0'

  /** The C string held by a buffer: every character before its first NUL. */
  function CStr(buf: string): (s: string)
    ensures s <= buf
    ensures NUL !in s
    ensures |s| < |buf| ==> buf[|s|] == NUL
  {
    if |buf| == 0 || buf[0] == NUL then [] else [buf[0]] + CStr(buf[1..])
  }

  /** A NUL-free prefix is kept whole in the C string of a longer buffer. */
  lemma {:induction false} CStrAppend(a: string, b: string)
    requires NUL !in a
    ensures CStr(a + b) == a + CStr(b)
    decreases |a|
  {
    if |a| > 0 {
      assert (a + b)[1..] == a[1..] + b;
      CStrAppend(a[1..], b);
    } else {
      assert a + b == b;
    }
  }

  /** A buffer without a NUL is its own C string. */
  lemma CStrWhole(buf: string)
    requires NUL !in buf
    ensures CStr(buf) == buf
  {
    assert CStr(buf) <= buf;
  }

  /** `pat` occurs in `s` starting at index `i`. */
  predicate OccursAt(s: string, pat: string, i: int)
  {
    0 <= i && i + |pat| <= |s| && s[i..i + |pat|] == pat
  }

  /** The least index at or after `from` where `pat` occurs, if any. */
  function FindFrom(s: string, pat: string, from: nat): (r: Option<nat>)
    decreases |s| - from
    ensures r.Some? ==> from <= r.value && OccursAt(s, pat, r.value)
    ensures r.Some? ==> forall j :: from <= j < r.value ==> !OccursAt(s, pat, j)
    ensures r.None? ==> forall j :: from <= j ==> !OccursAt(s, pat, j)
  {
    if from + |pat| > |s| then None
    else if s[from..from + |pat|] == pat then Some(from)
    else FindFrom(s, pat, from + 1)
  }

  /** `strstr(s, pat)`: the first occurrence of `pat` in `s`. */
  function Find(s: string, pat: string): (r: Option<nat>)
    ensures r.Some? ==> OccursAt(s, pat, r.value)
    ensures r.Some? ==> forall j :: 0 <= j < r.value ==> !OccursAt(s, pat, j)
    ensures r.None? <==> forall j :: !OccursAt(s, pat, j)
  {
    FindFrom(s, pat, 0)
  }

  /** `strchr(s + from, c)`: the first position at or after `from` holding `c`. */
  function FindChar(s: string, c: char, from: nat): (r: Option<nat>)
    ensures r.Some? ==> from <= r.value < |s| && s[r.value] == c
    ensures r.Some? ==> forall j :: from <= j < r.value ==> s[j] != c
    ensures r.None? <==> forall j :: from <= j < |s| ==> s[j] != c
  {
    var r := FindFrom(s, [c], from);
    assert forall j :: from <= j < |s| ==> (OccursAt(s, [c], j) <==> s[j] == c) by {
      forall j | from <= j < |s|
        ensures OccursAt(s, [c], j) <==> s[j] == c
      {
        assert s[j..j + 1] == [s[j]];
      }
    }
    r
  }

  /** An occurrence with none before it is what `Find` returns. */
  lemma FindIs(s: string, pat: string, k: nat)
    requires OccursAt(s, pat, k)
    requires forall j :: 0 <= j < k ==> !OccursAt(s, pat, j)
    ensures Find(s, pat) == Some(k)
  {
  }

  /** A `c` with none before it from `from` on is what `FindChar` returns. */
  lemma FindCharIs(s: string, c: char, from: nat, k: nat)
    requires from <= k < |s| && s[k] == c
    requires forall j :: from <= j < k ==> s[j] != c
    ensures FindChar(s, c, from) == Some(k)
  {
  }

  /**
   * `strncpy(dst, src, n); dst[n] = '\0';` — the C string left in `dst`:
   * the C string of `src`, cut to at most `n` characters.
   */
  function BoundedCopy(src: string, n: nat): (r: string)
    ensures |r| <= n
    ensures NUL !in r
    ensures r <= CStr(src)
    ensures |r| < n ==> r == CStr(src)
  {
    var s := CStr(src);
    if |s| <= n then s else s[..n]
  }
}

=== FILE: errno.dfy ===
/** The one `errno` value both loops treat specially. */
module Errno {
  /** A system call interrupted by a signal (`EINTR`, 4 on Linux). */
  const EINTR: int := 4
}

=== FILE: monitor.dfy ===
/**
 * The monitor's receive loop.  Each wake-up of `recvfrom` either delivers
 * a datagram, which is decoded and, for a configured site, recorded, or
 * reports an error: an interruption by a signal is retried unless the
 * exit flag has been set by the handler, and every other error ends the
 * program.
 */
module Monitor {
  import opened Wrappers
  import opened CStrings
  import opened Wire
  import opened Registry
  import opened Errno

  /** Size of the receive buffer; one byte is kept for the terminating NUL. */
  const RecvBufferSize: nat := 1024

  /** What one `recvfrom` call yields: the datagram, or -1 with `errno`. */
  datatype RecvResult = Received(datagram: string) | RecvError(errno: int)

  /** One wake-up of the loop: the call's outcome and `time_to_exit` at that moment. */
  datatype Wakeup = Wakeup(result: RecvResult, timeToExit: bool)

  /** The monitor between wake-ups: still listening, or gone with an exit status. */
  datatype Monitor = Listening(sites: seq<Site>) | Exited(sites: seq<Site>, status: int)

  /** The bytes `recvfrom` stores: a datagram longer than the buffer less one byte is cut. */
  function Stored(datagram: string): (data: string)
    ensures |data| < RecvBufferSize && data <= datagram
    ensures |datagram| < RecvBufferSize ==> data == datagram
    ensures |data| < RecvBufferSize - 1 ==> data == datagram
  {
    if |datagram| < RecvBufferSize then datagram else datagram[..RecvBufferSize - 1]
  }

  /** A wake-up after which the loop is left. */
  predicate Ends(w: Wakeup)
  {
    w.result.RecvError? && (w.result.errno != EINTR || w.timeToExit)
  }

  /**
   * One pass of the loop.  Errors never touch the table and every exit has
   * status 0; a datagram that does not decode is dropped, one that does is
   * recorded against the first row with its site id.
   */
  function Step(sites: seq<Site>, w: Wakeup): (m: Monitor)
    ensures m.Exited? <==> Ends(w)
    ensures m.Exited? ==> m.status == 0
    ensures |m.sites| == |sites| && Ids(m.sites) == Ids(sites)
    ensures w.result.RecvError? ==> m.sites == sites
    ensures w.result.Received? && Decode(Stored(w.result.datagram)).None? ==> m == Listening(sites)
    ensures w.result.Received? && Decode(Stored(w.result.datagram)).Some? ==>
              m == Listening(Record(sites, Decode(Stored(w.result.datagram)).value))
  {
    match w.result
    case RecvError(errno) =>
      if errno == EINTR && !w.timeToExit then Listening(sites) else Exited(sites, 0)
    case Received(datagram) =>
      match Decode(Stored(datagram))
      case None => Listening(sites)
      case Some(hb) => Listening(Record(sites, hb))
  }

  /** The loop over a sequence of wake-ups, stopping at the first that ends it. */
  function Run(sites: seq<Site>, ws: seq<Wakeup>): (m: Monitor)
    ensures m.Exited? ==> m.status == 0
    ensures m.Exited? ==> |ws| > 0
    decreases |ws|
  {
    if |ws| == 0 then Listening(sites)
    else match Step(sites, ws[0])
      case Listening(next) => Run(next, ws[1..])
      case Exited(final, status) => Exited(final, status)
  }

  /** No run adds, removes or renames a row of the table. */
  lemma {:induction false} RunKeepsIds(sites: seq<Site>, ws: seq<Wakeup>)
    ensures |Run(sites, ws).sites| == |sites| && Ids(Run(sites, ws).sites) == Ids(sites)
    decreases |ws|
  {
    if |ws| > 0 && Step(sites, ws[0]).Listening? {
      RunKeepsIds(Step(sites, ws[0]).sites, ws[1..]);
    }
  }

  /**
   * A run ends exactly when one of its wake-ups is an error other than an
   * interruption without the exit flag, and then always with status 0.
   */
  lemma {:induction false} RunExits(sites: seq<Site>, ws: seq<Wakeup>)
    ensures Run(sites, ws).Exited? <==> exists i :: 0 <= i < |ws| && Ends(ws[i])
    ensures Run(sites, ws).Exited? ==> Run(sites, ws).status == 0
    decreases |ws|
  {
    if |ws| > 0 {
      if Ends(ws[0]) {
      } else {
        RunExits(Step(sites, ws[0]).sites, ws[1..]);
        assert forall i :: 1 <= i < |ws| ==> ws[i] == ws[1..][i - 1];
        assert forall i :: 0 <= i < |ws| - 1 ==> ws[1..][i] == ws[i + 1];
      }
    }
  }

  /**
   * A heartbeat as the sender formats it, for a site id without `_` and of
   * at most 63 characters, is recorded with exactly the time it carries.
   */
  lemma SentHeartbeatRecorded(sites: seq<Site>, site: string, tv: Timeval, timeToExit: bool)
    requires '_' !in site && NUL !in site && |site| < MaxSiteIdLen
    requires 0 <= tv.usec <= 999999
    requires |Payload(site, tv)| < SendBufferSize
    ensures Step(sites, Wakeup(Received(Encode(site, tv)), timeToExit))
              == Listening(Record(sites, Heartbeat(site, tv)))
  {
    RoundTrip(site, tv);
  }

  /** Two wake-ups that both keep the loop listening run one after the other. */
  lemma RunTwo(sites: seq<Site>, w1: Wakeup, w2: Wakeup, mid: seq<Site>, final: seq<Site>)
    requires Step(sites, w1) == Listening(mid) && Step(mid, w2) == Listening(final)
    ensures Run(sites, [w1, w2]) == Listening(final)
  {
    assert [w1, w2][1..] == [w2];
    assert Run(sites, [w1, w2]) == Run(mid, [w2]);
    assert [w2][1..] == [];
    assert Run(mid, [w2]) == Run(final, []);
  }

  /** Two recorded heartbeats from one known site leave the second one's time in its row. */
  lemma RecordedTwice(sites: seq<Site>, w1: Wakeup, w2: Wakeup, h1: Heartbeat, h2: Heartbeat)
    requires h1.site == h2.site && Lookup(sites, h2.site) != -1
    requires Step(sites, w1) == Listening(Record(sites, h1))
    requires Step(Record(sites, h1), w2) == Listening(Record(Record(sites, h1), h2))
    ensures var m := Run(sites, [w1, w2]);
            m.Listening? && |m.sites| == |sites| && m.sites[Lookup(sites, h2.site)] == Site(h2.site, h2.time)
  {
    RunTwo(sites, w1, w2, Record(sites, h1), Record(Record(sites, h1), h2));
    RecordTwiceKeepsLast(sites, h1, h2);
    RecordedTimeFound(sites, h2);
  }

  /** Of two heartbeats from one configured site, the table keeps the later time. */
  lemma SecondHeartbeatWins(sites: seq<Site>, site: string, first: Timeval, second: Timeval)
    requires '_' !in site && NUL !in site && |site| < MaxSiteIdLen
    requires 0 <= first.usec <= 999999 && 0 <= second.usec <= 999999
    requires |Payload(site, first)| < SendBufferSize && |Payload(site, second)| < SendBufferSize
    requires Lookup(sites, site) != -1
    ensures var m := Run(sites, [Wakeup(Received(Encode(site, first)), false),
                                 Wakeup(Received(Encode(site, second)), false)]);
            m.Listening? && |m.sites| == |sites| && m.sites[Lookup(sites, site)] == Site(site, second)
  {
    var h1, h2 := Heartbeat(site, first), Heartbeat(site, second);
    SentHeartbeatRecorded(sites, site, first, false);
    SentHeartbeatRecorded(Record(sites, h1), site, second, false);
    RecordedTwice(sites, Wakeup(Received(Encode(site, first)), false), Wakeup(Received(Encode(site, second)), false), h1, h2);
  }
}

=== FILE: numerals.dfy ===
/**
 * Decimal text as `printf` writes it (`%ld`, `%0<w>ld`) and as `sscanf`
 * reads it (`%ld`, `%<w>ld`), with the lemmas that make one undo the other.
 */
module Numerals {
  import opened Wrappers

  predicate IsDigit(c: char)
  {
    '0' <= c <= '9'
  }

  predicate AllDigits(s: string)
  {
    forall i :: 0 <= i < |s| ==> IsDigit(s[i])
  }

  function DigitValue(c: char): (d: nat)
    requires IsDigit(c)
    ensures d < 10
  {
    (c as int) - ('0' as int)
  }

  function DigitChar(d: nat): (c: char)
    requires d < 10
    ensures IsDigit(c) && DigitValue(c) == d
  {
    (('0' as int) + d) as char
  }

  function Pow10(k: nat): (p: int)
    ensures p >= 1
  {
    if k == 0 then 1 else 10 * Pow10(k - 1)
  }

  lemma {:induction false} Pow10Monotonic(a: nat, b: nat)
    ensures a <= b ==> Pow10(a) <= Pow10(b)
    decreases b
  {
    if a < b {
      Pow10Monotonic(a, b - 1);
    }
  }

  /** The value of a run of decimal digits, most significant digit first. */
  function DigitsValue(s: string): (n: nat)
    requires AllDigits(s)
    ensures n < Pow10(|s|)
  {
    if |s| == 0 then 0 else DigitsValue(s[..|s| - 1]) * 10 + DigitValue(s[|s| - 1])
  }

  /**
   * The digits `%ld` prints for a non-negative value: at least one digit,
   * no leading zero, and they denote the value.
   */
  function Decimal(n: nat): (s: string)
    ensures 1 <= |s| && AllDigits(s)
    ensures DigitsValue(s) == n
    ensures 1 < |s| ==> Pow10(|s| - 1) <= n
    ensures 1 < |s| ==> s[0] != '0'
  {
    if n < 10 then [DigitChar(n)]
    else
      var s := Decimal(n / 10) + [DigitChar(n % 10)];
      assert s[..|s| - 1] == Decimal(n / 10);
      assert s[0] == Decimal(n / 10)[0];
      s
  }

  /** A value below `10^w` takes at most `w` digits. */
  lemma DecimalWidth(n: nat, w: nat)
    requires 1 <= w && n < Pow10(w)
    ensures |Decimal(n)| <= w
  {
    var s := Decimal(n);
    Pow10Monotonic(w, |s| - 1);
  }

  /** A value of at least `10^w` takes more than `w` digits. */
  lemma DecimalWide(n: nat, w: nat)
    requires Pow10(w) <= n
    ensures w < |Decimal(n)|
  {
    var s := Decimal(n);
    Pow10Monotonic(|s|, w);
  }

  /** A digit run splits at `k` into its first `k` digits, shifted, and the rest. */
  lemma {:induction false} DigitsValueSplit(s: string, k: nat)
    requires AllDigits(s) && k <= |s|
    ensures AllDigits(s[..k]) && AllDigits(s[k..])
    ensures DigitsValue(s) == DigitsValue(s[..k]) * Pow10(|s| - k) + DigitsValue(s[k..])
    decreases |s|
  {
    if k == |s| {
      assert s[..k] == s && s[k..] == [];
    } else {
      var init := s[..|s| - 1];
      var t := s[k..];
      assert AllDigits(init) && AllDigits(t);
      DigitsValueSplit(init, k);
      assert init[..k] == s[..k];
      assert t[..|t| - 1] == init[k..] && t[|t| - 1] == s[|s| - 1];
      SplitStep(DigitsValue(s[..k]), Pow10(|s| - 1 - k), DigitsValue(init[k..]), DigitValue(s[|s| - 1]));
    }
  }

  /** The arithmetic of one step of `DigitsValueSplit`. */
  lemma SplitStep(a: int, p: int, rest: int, d: int)
    ensures (a * p + rest) * 10 + d == a * (10 * p) + (rest * 10 + d)
  {
  }

  /** The first `k` digits of a run denote its value with the last `|s| - k` digits dropped. */
  lemma DigitsPrefixValue(s: string, k: nat)
    requires AllDigits(s) && k <= |s|
    ensures AllDigits(s[..k]) && DigitsValue(s[..k]) == DigitsValue(s) / Pow10(|s| - k)
  {
    DigitsValueSplit(s, k);
    var a, p, b := DigitsValue(s[..k]), Pow10(|s| - k), DigitsValue(s[k..]);
    assert |s[k..]| == |s| - k;
    Quotient(a, p, b);
    assert DigitsValue(s) == a * p + b;
  }

  /** `a * p + b` divided by `p` is `a` when `0 <= b < p`. */
  lemma Quotient(a: int, p: int, b: int)
    requires 0 < p && 0 <= b < p
    ensures (a * p + b) / p == a
  {
    var x := a * p + b;
    var q := x / p;
    var d := q - a;
    assert d * p == b - x % p by {
      assert x == p * q + x % p;
      Distribute(q, a, p);
    }
    if d >= 1 {
      MulAtLeast(d, p);
    } else if d <= -1 {
      MulAtLeast(-d, p);
      Distribute(0, d, p);
    }
  }

  lemma Distribute(q: int, a: int, p: int)
    ensures (q - a) * p == q * p - a * p
  {
  }

  lemma MulAtLeast(d: int, p: int)
    requires 1 <= d && 0 < p
    ensures p <= d * p
  {
    assert d * p == p + (d - 1) * p;
  }

  /** Dropping at least one trailing digit makes a positive value smaller. */
  lemma ShiftedSmaller(x: nat, m: nat)
    requires 0 < x && 0 < m
    ensures x / Pow10(m) < x
  {
    var p := Pow10(m);
    assert p >= 10;
    var q := x / p;
    assert x == p * q + x % p;
    if q > 0 {
      MulGrows(q, p);
    }
  }

  lemma MulGrows(q: int, p: int)
    requires 0 < q && 2 <= p
    ensures q < p * q
  {
    MulAtLeast(p - 1, q);
    assert p * q == q + (p - 1) * q;
  }

  function Zeros(k: nat): (z: string)
    ensures |z| == k && AllDigits(z)
  {
    if k == 0 then [] else ['0'] + Zeros(k - 1)
  }

  /** Leading zeros add nothing to the value of a digit run. */
  lemma {:induction false} LeadingZero(s: string)
    requires AllDigits(s)
    ensures AllDigits(['0'] + s) && DigitsValue(['0'] + s) == DigitsValue(s)
    decreases |s|
  {
    var t := ['0'] + s;
    if |s| > 0 {
      assert t[..|t| - 1] == ['0'] + s[..|s| - 1];
      LeadingZero(s[..|s| - 1]);
    }
  }

  lemma {:induction false} LeadingZeros(k: nat, s: string)
    requires AllDigits(s)
    ensures AllDigits(Zeros(k) + s) && DigitsValue(Zeros(k) + s) == DigitsValue(s)
    decreases k
  {
    if k > 0 {
      var t := Zeros(k - 1) + s;
      LeadingZeros(k - 1, s);
      LeadingZero(t);
      assert Zeros(k) + s == ['0'] + t;
    } else {
      assert Zeros(k) + s == s;
    }
  }

  /** `ds` with zeros prepended up to `width` characters. */
  function ZeroPad(ds: string, width: nat): (r: string)
    requires AllDigits(ds)
    ensures |r| >= width && |r| >= |ds|
    ensures |ds| <= width ==> |r| == width
    ensures AllDigits(r) && DigitsValue(r) == DigitsValue(ds)
  {
    if |ds| < width then
      LeadingZeros(width - |ds|, ds);
      Zeros(width - |ds|) + ds
    else ds
  }

  /** `printf("%ld", x)`. */
  function FormatLong(x: int): (s: string)
    ensures 1 <= |s|
    ensures x < 0 <==> s[0] == '-'
    ensures forall i :: 0 < i < |s| ==> IsDigit(s[i])
    ensures 0 <= x ==> IsDigit(s[0])
    ensures var d := if x < 0 then s[1..] else s;
            && AllDigits(d) && DigitsValue(d) == (if x < 0 then -x else x)
            && (1 < |d| ==> d[0] != '0')
  {
    if x < 0 then "-" + Decimal(-x) else Decimal(x)
  }

  /**
   * `printf("%0<width>ld", x)`: the zero flag pads with zeros after the
   * sign, so that the field, sign included, is at least `width` long.
   */
  function FormatPadded(x: int, width: nat): (s: string)
    requires 1 <= width
    ensures |s| >= width
    ensures x < 0 <==> s[0] == '-'
    ensures forall i :: 0 < i < |s| ==> IsDigit(s[i])
    ensures 0 <= x ==> IsDigit(s[0])
  {
    if x < 0 then "-" + ZeroPad(Decimal(-x), width - 1) else ZeroPad(Decimal(x), width)
  }

  /** The padded field is exactly `width` long precisely for the values that fit in it. */
  lemma FormatPaddedExact(x: int, width: nat)
    requires 1 <= width
    ensures |FormatPadded(x, width)| == width <==> -Pow10(width - 1) < x < Pow10(width)
  {
    if x < 0 {
      if -x < Pow10(width - 1) {
        NegativeFits(x, width);
      } else {
        NegativeWide(x, width);
      }
    } else {
      if x < Pow10(width) {
        NonNegativeFits(x, width);
      } else {
        NonNegativeWide(x, width);
      }
    }
  }

  /** A negative value whose magnitude has fewer than `width` digits fills the field exactly. */
  lemma NegativeFits(x: int, width: nat)
    requires 1 <= width && x < 0 && -x < Pow10(width - 1)
    ensures |FormatPadded(x, width)| == width
  {
    assert 1 < width;
    DecimalWidth(-x, width - 1);
    assert |FormatPadded(x, width)| == 1 + |ZeroPad(Decimal(-x), width - 1)|;
  }

  /** A negative value too large in magnitude overflows the field. */
  lemma NegativeWide(x: int, width: nat)
    requires 1 <= width && x < 0 && Pow10(width - 1) <= -x
    ensures |FormatPadded(x, width)| > width
  {
    DecimalWide(-x, width - 1);
  }

  /** A non-negative value below `10^width` fills the field exactly. */
  lemma NonNegativeFits(x: int, width: nat)
    requires 1 <= width && 0 <= x < Pow10(width)
    ensures |FormatPadded(x, width)| == width
  {
    DecimalWidth(x, width);
  }

  /** A non-negative value of at least `10^width` overflows the field. */
  lemma NonNegativeWide(x: int, width: nat)
    requires 1 <= width && 0 <= x && Pow10(width) <= x
    ensures |FormatPadded(x, width)| > width
  {
    DecimalWide(x, width);
  }

  predicate IsSpace(c: char)
  {
    c == ' ' || c == '\t' || c == '\n' || c == '\U{000B}' || c == '\U{000C}' || c == '\r'
  }

  /** The number of white-space characters `scanf` skips before a numeric field. */
  function LeadingSpaces(s: string): (k: nat)
    ensures k <= |s|
    ensures k < |s| ==> !IsSpace(s[k])
  {
    if |s| == 0 || !IsSpace(s[0]) then 0 else 1 + LeadingSpaces(s[1..])
  }

  /** Every character `LeadingSpaces` counts is white space. */
  lemma {:induction false} LeadingSpacesAre(s: string)
    ensures forall i :: 0 <= i < LeadingSpaces(s) ==> IsSpace(s[i])
  {
    if |s| != 0 && IsSpace(s[0]) {
      LeadingSpacesAre(s[1..]);
      forall i | 0 < i < LeadingSpaces(s)
        ensures IsSpace(s[i])
      {
        assert s[i] == s[1..][i - 1];
      }
    }
  }

  /** The length of the longest run of digits that starts `s` and is at most `limit` long. */
  function LeadingDigits(s: string, limit: nat): (k: nat)
    ensures k <= limit && k <= |s|
    ensures k < limit && k < |s| ==> !IsDigit(s[k])
  {
    if limit == 0 || |s| == 0 || !IsDigit(s[0]) then 0 else 1 + LeadingDigits(s[1..], limit - 1)
  }

  /** Every character `LeadingDigits` counts is a digit. */
  lemma {:induction false} LeadingDigitsAre(s: string, limit: nat)
    ensures AllDigits(s[..LeadingDigits(s, limit)])
  {
    if limit != 0 && |s| != 0 && IsDigit(s[0]) {
      LeadingDigitsAre(s[1..], limit - 1);
      var k := LeadingDigits(s, limit);
      forall i | 0 < i < k
        ensures IsDigit(s[..k][i])
      {
        assert s[..k][i] == s[1..][..k - 1][i - 1];
      }
    }
  }

  /** `LeadingDigits` counts at least every digit of a run that fits within `limit`. */
  lemma {:induction false} LeadingDigitsCover(s: string, limit: nat, n: nat)
    requires n <= limit && n <= |s|
    requires forall i :: 0 <= i < n ==> IsDigit(s[i])
    ensures n <= LeadingDigits(s, limit)
  {
    if n > 0 {
      forall i | 0 <= i < n - 1
        ensures IsDigit(s[1..][i])
      {
        assert s[1..][i] == s[i + 1];
      }
      LeadingDigitsCover(s[1..], limit - 1, n - 1);
    }
  }

  /** `LeadingDigits` never counts past a non-digit. */
  lemma {:induction false} LeadingDigitsStop(s: string, limit: nat, n: nat)
    requires n < |s| && !IsDigit(s[n])
    ensures LeadingDigits(s, limit) <= n
  {
    if n > 0 && limit > 0 && IsDigit(s[0]) {
      assert s[1..][n - 1] == s[n];
      LeadingDigitsStop(s[1..], limit - 1, n - 1);
    }
  }

  /** A scanned value and the index of the first character after its field. */
  datatype Scanned = Scanned(value: int, next: nat)

  /** An unsigned run of at least one and at most `limit` digits at the start of `s`. */
  function ScanDigits(s: string, limit: nat): (r: Option<Scanned>)
    ensures r.Some? ==> 1 <= r.value.next <= limit && r.value.next <= |s|
    ensures r.Some? ==> 0 <= r.value.value < Pow10(r.value.next)
    ensures r.None? <==> limit == 0 || |s| == 0 || !IsDigit(s[0])
  {
    var k := LeadingDigits(s, limit);
    if k == 0 then None
    else
      LeadingDigitsAre(s, limit);
      Some(Scanned(DigitsValue(s[..k]), k))
  }

  /** A numeric field with an optional sign; the sign counts against `width`. */
  function ScanField(s: string, width: nat): (r: Option<Scanned>)
    ensures r.Some? ==> 1 <= width && r.value.next <= |s|
    ensures r.Some? ==> -Pow10(width - 1) < r.value.value < Pow10(width)
  {
    if 0 < width && 0 < |s| && (s[0] == '+' || s[0] == '-') then
      match ScanDigits(s[1..], width - 1)
      case None => None
      case Some(d) =>
        Pow10Monotonic(d.next, width - 1);
        Pow10Monotonic(width - 1, width);
        Some(Scanned(if s[0] == '-' then -d.value else d.value, 1 + d.next))
    else
      match ScanDigits(s, width)
      case None => None
      case Some(d) =>
        Pow10Monotonic(d.next, width);
        Some(d)
  }

  /**
   * `sscanf`'s `%ld` with maximum field width `width` (a field may never be
   * longer than the text, so `width == |s|` is the conversion with no width):
   * white space is skipped and not counted, then an optional sign and the
   * longest run of decimal digits that keeps the field within `width`; at
   * least one digit is required.
   */
  function ScanLong(s: string, width: nat): (r: Option<Scanned>)
    ensures r.Some? ==> r.value.next <= |s|
    ensures r.Some? ==> 1 <= width && -Pow10(width - 1) < r.value.value < Pow10(width)
  {
    var i := LeadingSpaces(s);
    match ScanField(s[i..], width)
    case None => None
    case Some(f) => Some(Scanned(f.value, i + f.next))
  }

  /**
   * When `%<width>ld` fails: after the white space there is no room for a
   * field, or no digit where the first digit must be (right after a sign,
   * which must leave room for it within the width, or at the start).
   */
  lemma ScanLongFails(s: string, width: nat)
    ensures var t := s[LeadingSpaces(s)..];
            ScanLong(s, width).None? <==>
              || width == 0 || |t| == 0
              || (if t[0] == '+' || t[0] == '-' then width == 1 || |t| == 1 || !IsDigit(t[1]) else !IsDigit(t[0]))
  {
    var t := s[LeadingSpaces(s)..];
    if 0 < width && 0 < |t| && (t[0] == '+' || t[0] == '-') {
      assert |t| > 1 ==> t[1..][0] == t[1];
    }
  }

  /** With no white space to skip, `%ld` is just its field. */
  lemma ScanLongUnspaced(s: string, width: nat)
    requires LeadingSpaces(s) == 0
    ensures ScanLong(s, width) == ScanField(s, width)
  {
    assert s[0..] == s;
  }

  /** A minus sign followed by a digit run scans as the negated run. */
  lemma ScanLongMinus(t: string, width: nat, n: int, k: nat, x: int, len: nat)
    requires 0 < width && ScanDigits(t, width - 1) == Some(Scanned(n, k))
    requires x == -n && len == 1 + k
    ensures ScanLong(['-'] + t, width) == Some(Scanned(x, len))
  {
    assert (['-'] + t)[1..] == t;
    ScanLongUnspaced(['-'] + t, width);
  }

  /** A digit run followed by a non-digit (or by the end of the field) is read whole. */
  lemma ScanDigitsOf(ds: string, rest: string, limit: nat)
    requires AllDigits(ds) && 1 <= |ds| <= limit
    requires |ds| == limit || rest == [] || !IsDigit(rest[0])
    ensures ScanDigits(ds + rest, limit) == Some(Scanned(DigitsValue(ds), |ds|))
  {
    var s := ds + rest;
    assert forall i :: 0 <= i < |ds| ==> s[i] == ds[i];
    assert |ds| < |s| ==> s[|ds|] == rest[0];
    LeadingDigitsCover(s, limit, |ds|);
    if |ds| < limit && |ds| < |s| {
      LeadingDigitsStop(s, limit, |ds|);
    }
    assert LeadingDigits(s, limit) == |ds|;
    assert s[..|ds|] == ds;
  }

  /** What `%<width>ld` reads from a minus sign, a digit run and whatever follows. */
  lemma ScanNegative(ds: string, rest: string, width: nat, x: int, len: nat)
    requires AllDigits(ds) && 1 <= |ds| && 1 + |ds| <= width
    requires -x == DigitsValue(ds) && len == 1 + |ds|
    requires 1 + |ds| == width || rest == [] || !IsDigit(rest[0])
    ensures ScanLong(['-'] + (ds + rest), width) == Some(Scanned(x, len))
  {
    ScanDigitsOf(ds, rest, width - 1);
    ScanLongMinus(ds + rest, width, DigitsValue(ds), |ds|, x, len);
  }

  /** What `%<width>ld` reads from an unsigned digit run and whatever follows. */
  lemma ScanUnsigned(ds: string, rest: string, width: nat)
    requires AllDigits(ds) && 1 <= |ds| <= width
    requires |ds| == width || rest == [] || !IsDigit(rest[0])
    ensures ScanLong(ds + rest, width) == Some(Scanned(DigitsValue(ds), |ds|))
  {
    var s := ds + rest;
    assert IsDigit(s[0]);
    ScanLongUnspaced(s, width);
    ScanDigitsOf(ds, rest, width);
  }

  /** `%ld` reads back what `%ld` printed, up to the first non-digit after it. */
  lemma ScanFormatLong(x: int, rest: string)
    requires rest == [] || !IsDigit(rest[0])
    ensures var s := FormatLong(x) + rest;
            ScanLong(s, |s|) == Some(Scanned(x, |FormatLong(x)|))
  {
    var s := FormatLong(x) + rest;
    if x < 0 {
      var ds := Decimal(-x);
      assert s == ['-'] + (ds + rest);
      ScanNegative(ds, rest, |s|, x, |FormatLong(x)|);
    } else {
      ScanUnsigned(Decimal(x), rest, |s|);
    }
  }

  /**
   * `%<width>ld` reads back what `%0<width>ld` printed, whatever follows it,
   * for every value whose padded field is exactly `width` long.
   */
  lemma ScanFormatPadded(x: int, width: nat, rest: string)
    requires 1 <= width && -Pow10(width - 1) < x < Pow10(width)
    ensures ScanLong(FormatPadded(x, width) + rest, width) == Some(Scanned(x, width))
  {
    FormatPaddedExact(x, width);
    if x < 0 {
      var ds := ZeroPad(Decimal(-x), width - 1);
      assert FormatPadded(x, width) + rest == ['-'] + (ds + rest);
      ScanNegative(ds, rest, width, x, width);
    } else {
      ScanUnsigned(ZeroPad(Decimal(x), width), rest, width);
    }
  }

  /** A character at which every `%ld` conversion stops: not white space, not a digit, not a sign. */
  predicate Stops(c: char)
  {
    !IsSpace(c) && !IsDigit(c) && c != '+' && c != '-'
  }

  /** White space before a non-space character at `h` is the same in any prefix that keeps `h`. */
  lemma {:induction false} LeadingSpacesPrefix(s: string, q: nat, h: nat)
    requires h < q <= |s| && !IsSpace(s[h])
    ensures LeadingSpaces(s[..q]) == LeadingSpaces(s) <= h
    decreases h
  {
    if IsSpace(s[0]) {
      assert s[..q][1..] == s[1..][..q - 1];
      LeadingSpacesPrefix(s[1..], q - 1, h - 1);
    }
  }

  /**
   * A digit run that a non-digit at `h` ends is the same in any prefix that
   * keeps `h`, under the same limit or under any two limits that reach `h`.
   */
  lemma {:induction false} LeadingDigitsPrefix(s: string, q: nat, h: nat, l1: nat, l2: nat)
    requires h < q <= |s| && !IsDigit(s[h])
    requires l1 == l2 || (h <= l1 && h <= l2)
    ensures LeadingDigits(s[..q], l1) == LeadingDigits(s, l2) <= h
    decreases h
  {
    if l1 != 0 && l2 != 0 && IsDigit(s[0]) {
      assert s[..q][1..] == s[1..][..q - 1];
      LeadingDigitsPrefix(s[1..], q - 1, h - 1, l1 - 1, l2 - 1);
    }
  }

  lemma ScanDigitsPrefix(s: string, q: nat, h: nat, l1: nat, l2: nat)
    requires h < q <= |s| && !IsDigit(s[h])
    requires l1 == l2 || (h <= l1 && h <= l2)
    ensures ScanDigits(s[..q], l1) == ScanDigits(s, l2)
    ensures ScanDigits(s, l2).Some? ==> ScanDigits(s, l2).value.next <= h
  {
    var k := LeadingDigits(s, l2);
    LeadingDigitsPrefix(s, q, h, l1, l2);
    assert s[..q][..k] == s[..k];
  }

  /** A numeric field scans alike in any prefix that keeps the stopping character at `h`. */
  lemma ScanFieldPrefix(s: string, q: nat, h: nat, w1: nat, w2: nat)
    requires h < q <= |s| && Stops(s[h])
    requires w1 == w2 || (h <= w1 && h <= w2)
    ensures ScanField(s[..q], w1) == ScanField(s, w2)
    ensures ScanField(s, w2).Some? ==> ScanField(s, w2).value.next <= h
  {
    if 0 < w2 && (s[0] == '+' || s[0] == '-') {
      SignedFieldPrefix(s, q, h, w1, w2);
    } else {
      UnsignedFieldPrefix(s, q, h, w1, w2);
    }
  }

  /** The signed case of `ScanFieldPrefix`: the digits after the sign stop at `h` in both. */
  lemma SignedFieldPrefix(s: string, q: nat, h: nat, w1: nat, w2: nat)
    requires h < q <= |s| && Stops(s[h]) && 0 < w2 && (s[0] == '+' || s[0] == '-')
    requires w1 == w2 || (h <= w1 && h <= w2)
    ensures ScanField(s[..q], w1) == ScanField(s, w2)
    ensures ScanField(s, w2).Some? ==> ScanField(s, w2).value.next <= h
  {
    assert 1 <= h && 0 < w1 && s[1..][h - 1] == s[h];
    ScanDigitsPrefix(s[1..], q - 1, h - 1, w1 - 1, w2 - 1);
    SignedFieldCut(s, q, w1, w2);
  }

  /** A signed field scans alike in a prefix when the digits after the sign do. */
  lemma SignedFieldCut(s: string, q: nat, w1: nat, w2: nat)
    requires 1 <= q <= |s| && (s[0] == '+' || s[0] == '-') && 0 < w1 && 0 < w2
    requires ScanDigits(s[1..][..q - 1], w1 - 1) == ScanDigits(s[1..], w2 - 1)
    ensures ScanField(s[..q], w1) == ScanField(s, w2)
  {
    assert s[..q][0] == s[0];
    assert s[..q][1..] == s[1..][..q - 1];
  }

  /** The unsigned case of `ScanFieldPrefix`: the digits stop at `h` in both. */
  lemma UnsignedFieldPrefix(s: string, q: nat, h: nat, w1: nat, w2: nat)
    requires h < q <= |s| && Stops(s[h]) && !(0 < w2 && (s[0] == '+' || s[0] == '-'))
    requires w1 == w2 || (h <= w1 && h <= w2)
    ensures ScanField(s[..q], w1) == ScanField(s, w2)
    ensures ScanField(s, w2).Some? ==> ScanField(s, w2).value.next <= h
  {
    assert s[..q][0] == s[0];
    ScanDigitsPrefix(s, q, h, w1, w2);
  }

  /** `ScanLong` of two texts that skip the same white space and then scan the same field. */
  lemma ScanLongSame(a: string, b: string, wa: nat, wb: nat, i: nat)
    requires i == LeadingSpaces(a) == LeadingSpaces(b)
    requires ScanField(a[i..], wa) == ScanField(b[i..], wb)
    ensures ScanLong(a, wa) == ScanLong(b, wb)
  {
  }

  /**
   * `%ld` never reads past a character at which it stops: its result is the
   * same on any prefix of the text that keeps that character, under the
   * same width or under any two widths that reach it.
   */
  lemma ScanLongPrefix(s: string, q: nat, h: nat, w1: nat, w2: nat)
    requires h < q <= |s| && Stops(s[h])
    requires w1 == w2 || (h <= w1 && h <= w2)
    ensures ScanLong(s[..q], w1) == ScanLong(s, w2)
    ensures ScanLong(s, w2).Some? ==> ScanLong(s, w2).value.next <= h
  {
    var i := LeadingSpaces(s);
    LeadingSpacesPrefix(s, q, h);
    assert s[..q][i..] == s[i..][..q - i];
    ScanFieldPrefix(s[i..], q - i, h - i, w1, w2);
    ScanLongSame(s[..q], s, w1, w2, i);
  }
}

=== FILE: options.dfy ===
/**
 * Command-line validation of the two programs, after `getopt_long` and
 * `atoi` have turned the options into integers.  A rejected command line
 * prints a message and the usage text and exits with failure; here it is
 * `None`.
 */
module Options {
  import opened Wrappers

  /** Port used by both programs when `-P` is not given. */
  const DefaultPort: int := 12345

  /** Transmission period of the sender when `-p` is not given. */
  const DefaultPeriodSeconds: int := 10

  /** Both programs accept only unprivileged ports. */
  predicate PortAllowed(port: int)
  {
    1024 < port <= 65535
  }

  /** A command line the monitor accepts: its port and the site ids to watch. */
  datatype MonitorConfig = MonitorConfig(port: int, siteArgs: seq<string>)

  /**
   * The monitor's checks: the listen port must lie in 1025..65535 and at
   * least one site id must follow the options.
   */
  function MonitorOptions(port: int, operands: seq<string>): (r: Option<MonitorConfig>)
    ensures r.Some? <==> 1025 <= port && port <= 65535 && operands != []
    ensures r.Some? ==> r.value == MonitorConfig(port, operands)
  {
    if !PortAllowed(port) || |operands| == 0 then None
    else Some(MonitorConfig(port, operands))
  }

  /** A command line the sender accepts. */
  datatype SenderConfig = SenderConfig(siteId: string, monitorAddress: string, periodSeconds: int, port: int)

  /**
   * The sender's checks: a positive period, a port in 1025..65535, and
   * exactly two operands, the site id and the monitor's address.
   */
  function SenderOptions(period: int, port: int, operands: seq<string>): (r: Option<SenderConfig>)
    ensures r.Some? <==> 1 <= period && 1025 <= port && port <= 65535 && |operands| == 2
    ensures r.Some? ==> r.value == SenderConfig(operands[0], operands[1], period, port)
    ensures r.Some? ==> r.value.periodSeconds > 0
  {
    if period <= 0 || !PortAllowed(port) || |operands| != 2 then None
    else Some(SenderConfig(operands[0], operands[1], period, port))
  }

  /** Started without options, both programs accept their defaults. */
  lemma DefaultsAccepted(site: string, address: string, sites: seq<string>)
    requires sites != []
    ensures MonitorOptions(DefaultPort, sites) == Some(MonitorConfig(12345, sites))
    ensures SenderOptions(DefaultPeriodSeconds, DefaultPort, [site, address])
              == Some(SenderConfig(site, address, 10, 12345))
  {
  }
}

=== FILE: registry.dfy ===
/**
 * The monitor's fixed site table (`monitored_sites`, `num_monitored_sites`):
 * filled once from the command line, searched by `lookup_site`, and
 * updated in place when a heartbeat for a configured site arrives.
 */
module Registry {
  import opened Wire

  /** Capacity of the table. */
  const MaxSites: nat := 10

  /** One row of the table: a site id and the last heartbeat time recorded for it. */
  datatype Site = Site(id: string, lastHeartbeat: Timeval)

  /** `k` is the first row whose id is `id`: the one `lookup_site` finds. */
  predicate FirstWithId(sites: seq<Site>, k: int, id: string)
  {
    0 <= k < |sites| && sites[k].id == id && forall j :: 0 <= j < k ==> sites[j].id != id
  }

  /** The ids of the table, in order. */
  function Ids(sites: seq<Site>): (ids: seq<string>)
    ensures |ids| == |sites|
    ensures forall k :: 0 <= k < |sites| ==> ids[k] == sites[k].id
  {
    seq(|sites|, k requires 0 <= k < |sites| => sites[k].id)
  }

  /**
   * The start-up loop over the site arguments: each of the first ten
   * becomes a row with its id cut to 63 characters and a zero timestamp;
   * the loop stops at the first argument that finds the table full.
   * Duplicates are kept.
   */
  method Init(args: seq<string>) returns (sites: seq<Site>)
    ensures |sites| == if |args| < MaxSites then |args| else MaxSites
    ensures forall k :: 0 <= k < |sites| ==> sites[k] == Site(SiteId(args[k]), Timeval(0, 0))
  {
    sites := [];
    var i := 0;
    while i < |args|
      invariant 0 <= i <= |args|
      invariant |sites| == i <= MaxSites
      invariant forall k :: 0 <= k < |sites| ==> sites[k] == Site(SiteId(args[k]), Timeval(0, 0))
    {
      if |sites| < MaxSites {
        sites := sites + [Site(SiteId(args[i]), Timeval(0, 0))];
      } else {
        break;
      }
      i := i + 1;
    }
  }

  /** The scan of `lookup_site` from row `from` on, the rows before it having been passed over. */
  function LookupFrom(sites: seq<Site>, id: string, from: nat): (i: int)
    requires from <= |sites|
    requires forall j :: 0 <= j < from ==> sites[j].id != id
    decreases |sites| - from
    ensures i == -1 || (from <= i && FirstWithId(sites, i, id))
    ensures i == -1 <==> forall j :: 0 <= j < |sites| ==> sites[j].id != id
  {
    if from == |sites| then -1
    else if sites[from].id == id then from
    else LookupFrom(sites, id, from + 1)
  }

  /** `lookup_site`: the least row whose id equals `id`, or -1 when no row does. */
  function Lookup(sites: seq<Site>, id: string): (i: int)
    ensures i == -1 || FirstWithId(sites, i, id)
    ensures i == -1 <==> forall j :: 0 <= j < |sites| ==> sites[j].id != id
  {
    LookupFrom(sites, id, 0)
  }

  /**
   * A decoded heartbeat applied to the table: the first row with the
   * heartbeat's site id takes its time, every other row, the ids and the
   * size stay as they were; an unknown site changes nothing.
   */
  function Record(sites: seq<Site>, hb: Heartbeat): (r: seq<Site>)
    ensures |r| == |sites| && Ids(r) == Ids(sites)
    ensures forall k :: 0 <= k < |sites| ==>
              r[k] == if FirstWithId(sites, k, hb.site) then Site(sites[k].id, hb.time) else sites[k]
  {
    var i := Lookup(sites, hb.site);
    if i == -1 then sites else sites[i := Site(sites[i].id, hb.time)]
  }

  /** A heartbeat for a site the table does not hold leaves the table as it was. */
  lemma UnknownSiteIgnored(sites: seq<Site>, hb: Heartbeat)
    requires forall k :: 0 <= k < |sites| ==> sites[k].id != hb.site
    ensures Record(sites, hb) == sites
  {
  }

  /** After a heartbeat for a known site, `lookup_site` finds the row holding its time. */
  lemma RecordedTimeFound(sites: seq<Site>, hb: Heartbeat)
    requires Lookup(sites, hb.site) != -1
    ensures var i := Lookup(Record(sites, hb), hb.site);
            i == Lookup(sites, hb.site) && Record(sites, hb)[i] == Site(hb.site, hb.time)
  {
    var r := Record(sites, hb);
    var i := Lookup(sites, hb.site);
    assert Ids(r) == Ids(sites);
    assert forall j :: 0 <= j < |sites| ==> r[j].id == Ids(r)[j] == Ids(sites)[j] == sites[j].id;
    assert FirstWithId(r, i, hb.site);
  }

  /** A row that repeats an earlier row's id is never updated. */
  lemma DuplicateNeverUpdated(sites: seq<Site>, hb: Heartbeat, j: nat, k: nat)
    requires j < k < |sites| && sites[j].id == sites[k].id
    ensures Record(sites, hb)[k] == sites[k]
  {
    assert !FirstWithId(sites, k, hb.site);
  }

  /** Two heartbeats from the same site: only the later one's time remains. */
  lemma {:induction false} RecordTwiceKeepsLast(sites: seq<Site>, first: Heartbeat, second: Heartbeat)
    requires first.site == second.site
    ensures Record(Record(sites, first), second) == Record(sites, second)
  {
    var r := Record(sites, first);
    assert forall j :: 0 <= j < |sites| ==> r[j].id == Ids(r)[j] == Ids(sites)[j] == sites[j].id;
    assert forall k :: 0 <= k < |sites| ==> (FirstWithId(r, k, second.site) <==> FirstWithId(sites, k, second.site));
  }
}

=== FILE: sender.dfy ===
/**
 * The sender's endless loop: read the clock, format a heartbeat, send it,
 * and sleep for the period.  A send interrupted by a signal is retried at
 * once with a fresh timestamp; any other failure is reported and the
 * period is slept as usual.  The clock readings and the outcome of every
 * send are inputs; the loop's observable behaviour is the sequence of
 * actions it takes.
 */
module Sender {
  import opened Wire
  import opened Options
  import opened Errno

  /** What `sendto` returns: success, or -1 with `errno`. */
  datatype SendResult = SendOk | SendError(errno: int)

  /** One pass of the loop as seen from outside: the clock reading and the send's outcome. */
  datatype Attempt = Attempt(clock: Timeval, result: SendResult)

  /** What the loop does to the world. */
  datatype Action = Transmit(payload: string) | ReportFailure(errno: int) | Sleep(seconds: int)

  predicate Interrupted(a: Attempt)
  {
    a.result == SendError(EINTR)
  }

  /**
   * One pass: the heartbeat for this clock reading is transmitted; unless
   * the send was interrupted the loop then sleeps for the period, and a
   * failure other than an interruption is reported first.
   */
  function Cycle(cfg: SenderConfig, a: Attempt): (acts: seq<Action>)
    ensures 1 <= |acts| && acts[0] == Transmit(Encode(cfg.siteId, a.clock))
    ensures |acts| == 1 <==> Interrupted(a)
    ensures !Interrupted(a) ==> acts[|acts| - 1] == Sleep(cfg.periodSeconds)
    ensures forall k :: 1 <= k < |acts| ==> !acts[k].Transmit?
    ensures forall k :: 0 <= k < |acts| - 1 ==> !acts[k].Sleep?
    ensures (exists k :: 0 <= k < |acts| && acts[k].ReportFailure?) <==> a.result.SendError? && !Interrupted(a)
  {
    var send := Transmit(Encode(cfg.siteId, a.clock));
    match a.result
    case SendOk => [send, Sleep(cfg.periodSeconds)]
    case SendError(e) =>
      if e == EINTR then [send]
      else
        var acts := [send, ReportFailure(e), Sleep(cfg.periodSeconds)];
        assert acts[1].ReportFailure?;
        acts
  }

  /** The loop run over a finite sequence of passes. */
  function Trace(cfg: SenderConfig, attempts: seq<Attempt>): (t: seq<Action>)
    ensures |attempts| <= |t|
    ensures |attempts| > 0 ==> t[0] == Transmit(Encode(cfg.siteId, attempts[0].clock))
    decreases |attempts|
  {
    if |attempts| == 0 then [] else Cycle(cfg, attempts[0]) + Trace(cfg, attempts[1..])
  }

  /** The datagrams transmitted, in order. */
  function Payloads(t: seq<Action>): (ps: seq<string>)
    ensures |ps| <= |t|
    decreases |t|
  {
    if |t| == 0 then []
    else (if t[0].Transmit? then [t[0].payload] else []) + Payloads(t[1..])
  }

  /** The lengths of the sleeps, in order. */
  function Sleeps(t: seq<Action>): (ss: seq<int>)
    ensures |ss| <= |t|
    decreases |t|
  {
    if |t| == 0 then []
    else (if t[0].Sleep? then [t[0].seconds] else []) + Sleeps(t[1..])
  }

  /** The reported `errno` values, in order. */
  function Reports(t: seq<Action>): (es: seq<int>)
    ensures |es| <= |t|
    decreases |t|
  {
    if |t| == 0 then []
    else (if t[0].ReportFailure? then [t[0].errno] else []) + Reports(t[1..])
  }

  /** Number of passes whose send was not interrupted. */
  function Completed(attempts: seq<Attempt>): (n: nat)
    ensures n <= |attempts|
    decreases |attempts|
  {
    if |attempts| == 0 then 0
    else (if Interrupted(attempts[0]) then 0 else 1) + Completed(attempts[1..])
  }

  /** The `errno` of every failed send that was not an interruption, in order. */
  function Failures(attempts: seq<Attempt>): (es: seq<int>)
    ensures |es| <= |attempts|
    ensures forall k :: 0 <= k < |es| ==> es[k] != EINTR
    decreases |attempts|
  {
    if |attempts| == 0 then []
    else
      var a := attempts[0];
      (if a.result.SendError? && a.result.errno != EINTR then [a.result.errno] else []) + Failures(attempts[1..])
  }

  lemma {:induction false} PayloadsAppend(t: seq<Action>, u: seq<Action>)
    ensures Payloads(t + u) == Payloads(t) + Payloads(u)
    decreases |t|
  {
    if |t| == 0 {
      assert t + u == u;
    } else {
      assert (t + u)[0] == t[0];
      assert (t + u)[1..] == t[1..] + u;
      PayloadsAppend(t[1..], u);
    }
  }

  lemma {:induction false} SleepsAppend(t: seq<Action>, u: seq<Action>)
    ensures Sleeps(t + u) == Sleeps(t) + Sleeps(u)
    decreases |t|
  {
    if |t| == 0 {
      assert t + u == u;
    } else {
      assert (t + u)[0] == t[0];
      assert (t + u)[1..] == t[1..] + u;
      SleepsAppend(t[1..], u);
    }
  }

  lemma {:induction false} ReportsAppend(t: seq<Action>, u: seq<Action>)
    ensures Reports(t + u) == Reports(t) + Reports(u)
    decreases |t|
  {
    if |t| == 0 {
      assert t + u == u;
    } else {
      assert (t + u)[0] == t[0];
      assert (t + u)[1..] == t[1..] + u;
      ReportsAppend(t[1..], u);
    }
  }

  /**
   * The loop never stops on its own: every pass transmits exactly one
   * heartbeat, stamped with that pass's own clock reading, so a retried
   * send carries a fresh timestamp.
   */
  lemma {:induction false} EveryPassTransmits(cfg: SenderConfig, attempts: seq<Attempt>)
    ensures |Payloads(Trace(cfg, attempts))| == |attempts|
    ensures forall i :: 0 <= i < |attempts| ==>
              Payloads(Trace(cfg, attempts))[i] == Encode(cfg.siteId, attempts[i].clock)
    decreases |attempts|
  {
    if |attempts| > 0 {
      PayloadsAppend(Cycle(cfg, attempts[0]), Trace(cfg, attempts[1..]));
      CycleProjections(cfg, attempts[0]);
      EveryPassTransmits(cfg, attempts[1..]);
    }
  }

  /** The projections of one pass, unrolled over its at most three actions. */
  lemma CycleProjections(cfg: SenderConfig, a: Attempt)
    ensures Payloads(Cycle(cfg, a)) == [Encode(cfg.siteId, a.clock)]
    ensures Sleeps(Cycle(cfg, a)) == if Interrupted(a) then [] else [cfg.periodSeconds]
    ensures Reports(Cycle(cfg, a)) == if a.result.SendError? && a.result.errno != EINTR then [a.result.errno] else []
  {
    var c := Cycle(cfg, a);
    if |c| == 1 {
      assert c[1..] == [];
    } else if |c| == 2 {
      assert c[1..] == [c[1]] && c[1..][1..] == [];
    } else {
      assert c[1..] == [c[1], c[2]] && c[1..][1..] == [c[2]] && c[1..][1..][1..] == [];
      assert Payloads(c[1..][1..]) == [] && Reports(c[1..][1..]) == [];
      assert Sleeps(c[1..][1..]) == [cfg.periodSeconds];
    }
  }

  /**
   * Sleeps happen once per pass whose send was not interrupted, and every
   * one of them lasts the configured period.
   */
  lemma SleepsFollowCompletedSends(cfg: SenderConfig, attempts: seq<Attempt>)
    ensures |Sleeps(Trace(cfg, attempts))| == Completed(attempts)
    ensures forall k :: 0 <= k < |Sleeps(Trace(cfg, attempts))| ==> Sleeps(Trace(cfg, attempts))[k] == cfg.periodSeconds
  {
    SleepCount(cfg, attempts);
    SleepLengths(cfg, attempts);
  }

  /** One sleep per pass that was not interrupted. */
  lemma {:induction false} SleepCount(cfg: SenderConfig, attempts: seq<Attempt>)
    ensures |Sleeps(Trace(cfg, attempts))| == Completed(attempts)
    decreases |attempts|
  {
    if |attempts| > 0 {
      SleepsAppend(Cycle(cfg, attempts[0]), Trace(cfg, attempts[1..]));
      CycleProjections(cfg, attempts[0]);
      SleepCount(cfg, attempts[1..]);
    }
  }

  /** Every sleep lasts the configured period. */
  lemma {:induction false} SleepLengths(cfg: SenderConfig, attempts: seq<Attempt>)
    ensures forall k :: 0 <= k < |Sleeps(Trace(cfg, attempts))| ==> Sleeps(Trace(cfg, attempts))[k] == cfg.periodSeconds
    decreases |attempts|
  {
    if |attempts| > 0 {
      var here := Sleeps(Cycle(cfg, attempts[0]));
      var later := Sleeps(Trace(cfg, attempts[1..]));
      SleepsAppend(Cycle(cfg, attempts[0]), Trace(cfg, attempts[1..]));
      CycleProjections(cfg, attempts[0]);
      SleepLengths(cfg, attempts[1..]);
      assert Sleeps(Trace(cfg, attempts)) == here + later;
    }
  }

  /** Exactly the failed sends that were not interruptions are reported, in order. */
  lemma {:induction false} FailuresReported(cfg: SenderConfig, attempts: seq<Attempt>)
    ensures Reports(Trace(cfg, attempts)) == Failures(attempts)
    decreases |attempts|
  {
    if |attempts| > 0 {
      ReportsAppend(Cycle(cfg, attempts[0]), Trace(cfg, attempts[1..]));
      CycleProjections(cfg, attempts[0]);
      FailuresReported(cfg, attempts[1..]);
    }
  }

  /** After an interrupted send the next heartbeat goes out at once, with no sleep between. */
  lemma InterruptedSendRetried(cfg: SenderConfig, a: Attempt, next: Attempt, rest: seq<Attempt>)
    requires Interrupted(a)
    ensures var t := Trace(cfg, [a, next] + rest);
            2 <= |t| && t[0] == Transmit(Encode(cfg.siteId, a.clock))
            && t[1] == Transmit(Encode(cfg.siteId, next.clock))
  {
    var s := [a, next] + rest;
    assert s[1..] == [next] + rest;
    assert ([next] + rest)[1..] == rest;
  }
}

=== FILE: wire.dfy ===
/**
 * The heartbeat wire format: `HEARTBEAT_SITE:<site>_TIME:<sec>.<usec>`,
 * as the sender formats it with `snprintf` and the monitor takes it apart
 * with `strstr`, `strchr`, `strncpy` and `sscanf`.
 */
module Wire {
  import opened Wrappers
  import opened CStrings
  import opened Numerals

  const SiteMarker: string := "HEARTBEAT_SITE:"
  const TimeMarker: string := "_TIME:"

  /** Size of a site id buffer: at most 63 characters and the terminating NUL. */
  const MaxSiteIdLen: nat := 64

  /** Size of the sender's payload buffer, terminating NUL included. */
  const SendBufferSize: nat := 256

  /** Field width of the microseconds, printed with `%06ld` and scanned with `%06ld`. */
  const UsecWidth: nat := 6

  /** A `struct timeval`: whole seconds and microseconds. */
  datatype Timeval = Timeval(sec: int, usec: int)

  /** A decoded heartbeat: which site, and the time it claims to have been sent. */
  datatype Heartbeat = Heartbeat(site: string, time: Timeval)

  /** The C string the monitor copies out as a site id: at most 63 characters. */
  function SiteId(src: string): (id: string)
    ensures |id| < MaxSiteIdLen && NUL !in id
    ensures id <= CStr(src)
    ensures |id| < MaxSiteIdLen - 1 ==> id == CStr(src)
  {
    BoundedCopy(src, MaxSiteIdLen - 1)
  }

  /**
   * The site id the monitor extracts from `buf[start..p]`, where `p` is the
   * first `_` after `start`: it is terminated there and copied into a
   * 64-byte buffer, so it is cut, never rejected, when it is longer.
   */
  function SiteIdBetween(buf: string, start: nat, p: nat): (id: string)
    requires start <= p < |buf| && NUL !in buf && buf[p] == '_'
    requires forall j :: start <= j < p ==> buf[j] != '_'
    ensures |id| < MaxSiteIdLen && NUL !in id && '_' !in id
    ensures id <= buf[start..]
    ensures |id| < MaxSiteIdLen - 1 ==> start + |id| == p
  {
    var field := buf[start..p];
    assert forall k :: 0 <= k < |field| ==> field[k] == buf[start + k];
    assert CStr(field) == field;
    var id := SiteId(field);
    assert forall k :: 0 <= k < |id| ==> id[k] == buf[start + k];
    id
  }

  /**
   * `sscanf(text, "%ld.%06ld", &sec, &usec) == 2`: a `%ld`, a literal dot
   * right after it, and a `%ld` of at most six characters; anything after
   * the second number is ignored.
   */
  function ScanTimestamp(text: string): (r: Option<Timeval>)
    ensures r.Some? ==> -99999 <= r.value.usec <= 999999
  {
    match ScanLong(text, |text|)
    case None => None
    case Some(sec) => AfterSeconds(text, sec.value, sec.next)
  }

  /** The rest of `%ld.%06ld` once the seconds `sec` have been read up to `n`: a dot right there, then the microseconds. */
  function AfterSeconds(text: string, sec: int, n: nat): (r: Option<Timeval>)
    ensures r.Some? ==> r.value.sec == sec && -99999 <= r.value.usec <= 999999
    ensures r.Some? ==> n < |text| && text[n] == '.'
  {
    if n < |text| && text[n] == '.' then
      match ScanLong(text[n + 1..], UsecWidth)
      case None => None
      case Some(usec) =>
        assert Pow10(5) == 100000;
        Some(Timeval(sec, usec.value))
    else None
  }

  /**
   * When `sscanf(text, "%ld.%06ld", ...)` does not return 2: the seconds do
   * not scan, or no dot follows them directly, or the microseconds after
   * the dot do not scan.
   */
  lemma ScanTimestampFails(text: string)
    ensures ScanTimestamp(text).None? <==>
              || ScanLong(text, |text|).None?
              || |text| <= ScanLong(text, |text|).value.next
              || text[ScanLong(text, |text|).value.next] != '.'
              || ScanLong(text[ScanLong(text, |text|).value.next + 1..], UsecWidth).None?
  {
  }

  /** A timestamp that scans holds the seconds read first and the microseconds read after the dot. */
  lemma ScanTimestampFields(text: string)
    ensures ScanTimestamp(text).Some? ==>
              && ScanLong(text, |text|).Some?
              && ScanLong(text, |text|).value.next < |text|
              && text[ScanLong(text, |text|).value.next] == '.'
              && ScanLong(text[ScanLong(text, |text|).value.next + 1..], UsecWidth).Some?
              && ScanTimestamp(text).value
                 == Timeval(ScanLong(text, |text|).value.value,
                            ScanLong(text[ScanLong(text, |text|).value.next + 1..], UsecWidth).value.value)
  {
    match ScanLong(text, |text|)
    case None =>
    case Some(sec) => AfterSecondsFields(text, sec.value, sec.next);
  }

  /** The part after the seconds, when it scans, is a dot at `n` and the microseconds read after it. */
  lemma AfterSecondsFields(text: string, sec: int, n: nat)
    ensures AfterSeconds(text, sec, n).Some? ==>
              && n < |text| && text[n] == '.'
              && ScanLong(text[n + 1..], UsecWidth).Some?
              && AfterSeconds(text, sec, n).value == Timeval(sec, ScanLong(text[n + 1..], UsecWidth).value.value)
  {
  }

  /**
   * The text `sscanf` reads: everything after the time marker at `t`, up to
   * the NUL the decoder writes over the site id's terminating `_` at `p`.
   */
  function TimestampText(buf: string, t: nat, p: nat): (text: string)
    requires t + |TimeMarker| <= |buf|
    ensures text <= buf[t + |TimeMarker|..]
  {
    var start := t + |TimeMarker|;
    if start <= p <= |buf| then buf[start..][..p - start] else buf[start..]
  }

  /**
   * The monitor's decoding of the `n` bytes `recvfrom` stored: the buffer
   * is read as a C string; both markers are searched from its start; the
   * site id runs from the end of the site marker to the first `_` after it
   * and is cut to 63 characters; the timestamp is scanned after the time
   * marker. `None` is the monitor's "Bad data" `continue`.
   */
  function Decode(data: string): (r: Option<Heartbeat>)
    ensures r.Some? ==> |r.value.site| < MaxSiteIdLen && NUL !in r.value.site && '_' !in r.value.site
    ensures r.Some? ==> -99999 <= r.value.time.usec <= 999999
  {
    var buf := CStr(data);
    var siteAt := Find(buf, SiteMarker);
    var timeAt := Find(buf, TimeMarker);
    if siteAt.None? || timeAt.None? then None
    else
      var start := siteAt.value + |SiteMarker|;
      match FindChar(buf, '_', start)
      case None => None
      case Some(p) =>
        Stamped(SiteIdBetween(buf, start, p), ScanTimestamp(TimestampText(buf, timeAt.value, p)))
  }

  /** The heartbeat of `site` at `time`, or none when the timestamp did not scan. */
  function Stamped(site: string, time: Option<Timeval>): Option<Heartbeat>
  {
    match time
    case None => None
    case Some(tv) => Some(Heartbeat(site, tv))
  }

  /** No heartbeat is decoded from a buffer without the site marker. */
  lemma DecodeNeedsSiteMarker(data: string)
    ensures (forall i :: !OccursAt(CStr(data), SiteMarker, i)) ==> Decode(data).None?
  {
    if Decode(data).Some? {
      assert OccursAt(CStr(data), SiteMarker, Find(CStr(data), SiteMarker).value);
    }
  }

  /** No heartbeat is decoded from a buffer without the time marker. */
  lemma DecodeNeedsTimeMarker(data: string)
    ensures (forall i :: !OccursAt(CStr(data), TimeMarker, i)) ==> Decode(data).None?
  {
    if Decode(data).Some? {
      assert OccursAt(CStr(data), TimeMarker, Find(CStr(data), TimeMarker).value);
    }
  }

  /** The site id of every decoded heartbeat is a prefix of the text right after the first site marker. */
  lemma DecodedSitePrefix(data: string)
    ensures Decode(data).Some? ==>
              && Find(CStr(data), SiteMarker).Some?
              && Find(CStr(data), SiteMarker).value + |SiteMarker| <= |CStr(data)|
              && Decode(data).value.site <= CStr(data)[Find(CStr(data), SiteMarker).value + |SiteMarker|..]
  {
    if Decode(data).Some? {
      DecodedSiteField(data, Find(CStr(data), SiteMarker).value);
    }
  }

  /** A decoded site id shorter than 63 characters is followed by the `_` that ended it. */
  lemma DecodedSiteEnd(data: string)
    ensures Decode(data).Some? && |Decode(data).value.site| < MaxSiteIdLen - 1 ==>
              && Find(CStr(data), SiteMarker).Some?
              && Find(CStr(data), SiteMarker).value + |SiteMarker| + |Decode(data).value.site| < |CStr(data)|
              && CStr(data)[Find(CStr(data), SiteMarker).value + |SiteMarker| + |Decode(data).value.site|] == '_'
  {
    if Decode(data).Some? {
      DecodedSiteField(data, Find(CStr(data), SiteMarker).value);
    }
  }

  /** `DecodedSitePrefix` and `DecodedSiteEnd` with the position of the first site marker given by name. */
  lemma DecodedSiteField(data: string, m: nat)
    requires Decode(data).Some? && Find(CStr(data), SiteMarker) == Some(m)
    ensures m + |SiteMarker| <= |CStr(data)| && Decode(data).value.site <= CStr(data)[m + |SiteMarker|..]
    ensures |Decode(data).value.site| < MaxSiteIdLen - 1 ==>
              && m + |SiteMarker| + |Decode(data).value.site| < |CStr(data)|
              && CStr(data)[m + |SiteMarker| + |Decode(data).value.site|] == '_'
  {
    var p := FindChar(CStr(data), '_', m + |SiteMarker|).value;
    DecodeSiteAt(data, m, p);
    SiteFieldShape(CStr(data), m + |SiteMarker|, p, Decode(data).value.site);
  }

  /** The site id read between `start` and the `_` at `p` is a prefix of the text from `start`, ended by that `_` unless cut. */
  lemma SiteFieldShape(buf: string, start: nat, p: nat, id: string)
    requires start <= p < |buf| && NUL !in buf && buf[p] == '_'
    requires forall j :: start <= j < p ==> buf[j] != '_'
    requires id == SiteIdBetween(buf, start, p)
    ensures id <= buf[start..]
    ensures |id| < MaxSiteIdLen - 1 ==> start + |id| < |buf| && buf[start + |id|] == '_'
  {
  }

  /** The timestamp as `%ld.%06ld` prints it. */
  function Numbers(tv: Timeval): string
  {
    FormatLong(tv.sec) + "." + FormatPadded(tv.usec, UsecWidth)
  }

  /** The text `snprintf` would produce given room enough. */
  function Payload(site: string, tv: Timeval): (p: string)
    ensures SiteMarker <= p && NUL !in p
  {
    NumbersHaveNoNul(tv);
    PayloadParts(CStr(site), Numbers(tv));
    SiteMarker + CStr(site) + TimeMarker + Numbers(tv)
  }

  /** The payload's four parts: it starts with the site marker, and it is NUL-free when the site and the numbers are. */
  lemma PayloadParts(site: string, nums: string)
    ensures SiteMarker <= SiteMarker + site + TimeMarker + nums
    ensures NUL !in site && NUL !in nums ==> NUL !in SiteMarker + site + TimeMarker + nums
  {
    assert NUL !in SiteMarker && NUL !in TimeMarker;
  }

  /**
   * The sender's `snprintf(buffer, 256, "HEARTBEAT_SITE:%s_TIME:%ld.%06ld", ...)`:
   * the payload, cut to the 255 characters that fit before the terminator.
   */
  function Encode(site: string, tv: Timeval): (r: string)
    ensures |r| < SendBufferSize
    ensures r <= Payload(site, tv)
    ensures |Payload(site, tv)| < SendBufferSize ==> r == Payload(site, tv)
    ensures |r| < SendBufferSize - 1 ==> r == Payload(site, tv)
    ensures SiteMarker <= r
  {
    var p := Payload(site, tv);
    if |p| < SendBufferSize then p else p[..SendBufferSize - 1]
  }

  /** Splits `f + ('.' + x)` at the dot: the dot sits at `|f|` and `x` follows it. */
  lemma AfterDot(f: string, x: string)
    ensures (f + (['.'] + x))[|f|] == '.'
    ensures (f + (['.'] + x))[|f| + 1..] == x
  {
  }

  /** A scan of `<f>.<fp><rest>` in terms of the scans of its two numbers. */
  lemma ScanTimestampParts(f: string, fp: string, rest: string, sec: int, usec: int, n: nat)
    requires ScanLong(f + (['.'] + (fp + rest)), |f + (['.'] + (fp + rest))|) == Some(Scanned(sec, |f|))
    requires ScanLong(fp + rest, UsecWidth) == Some(Scanned(usec, n))
    ensures ScanTimestamp(f + (['.'] + (fp + rest))) == Some(Timeval(sec, usec))
  {
    AfterDot(f, fp + rest);
  }

  /** `%ld.%06ld` reads back what `%ld.%06ld` printed, whatever follows it. */
  lemma ScanTimestampOf(tv: Timeval, rest: string)
    requires -99999 <= tv.usec <= 999999
    ensures ScanTimestamp(Numbers(tv) + rest) == Some(tv)
  {
    var f := FormatLong(tv.sec);
    var fp := FormatPadded(tv.usec, UsecWidth);
    assert Numbers(tv) + rest == f + (['.'] + (fp + rest));
    ScanFormatLong(tv.sec, ['.'] + (fp + rest));
    UsecReadBack(tv.usec, rest);
    ScanTimestampParts(f, fp, rest, tv.sec, tv.usec, UsecWidth);
  }

  /** `%6ld` reads back the six characters `%06ld` printed for microseconds in -99999..999999. */
  lemma UsecReadBack(usec: int, rest: string)
    requires -99999 <= usec <= 999999
    ensures ScanLong(FormatPadded(usec, UsecWidth) + rest, UsecWidth) == Some(Scanned(usec, UsecWidth))
  {
    assert Pow10(5) == 100000 && Pow10(6) == 1000000;
    ScanFormatPadded(usec, UsecWidth, rest);
  }

  /** Decode, once each of its three searches has been resolved. */
  lemma DecodeOf(data: string, m: nat, t: nat, p: nat)
    requires Find(CStr(data), SiteMarker) == Some(m)
    requires Find(CStr(data), TimeMarker) == Some(t)
    requires FindChar(CStr(data), '_', m + |SiteMarker|) == Some(p)
    ensures Decode(data)
         == Stamped(SiteIdBetween(CStr(data), m + |SiteMarker|, p), ScanTimestamp(TimestampText(CStr(data), t, p)))
  {
  }

  /** The site id of a decoded heartbeat, once the site search has been resolved. */
  lemma DecodeSiteAt(data: string, m: nat, p: nat)
    requires Decode(data).Some?
    requires Find(CStr(data), SiteMarker) == Some(m)
    requires FindChar(CStr(data), '_', m + |SiteMarker|) == Some(p)
    ensures Decode(data).value.site == SiteIdBetween(CStr(data), m + |SiteMarker|, p)
  {
    var t := Find(CStr(data), TimeMarker).value;
    DecodeOf(data, m, t, p);
    StampedSite(SiteIdBetween(CStr(data), m + |SiteMarker|, p), ScanTimestamp(TimestampText(CStr(data), t, p)));
  }

  /** A stamped heartbeat carries the site it was given. */
  lemma StampedSite(site: string, time: Option<Timeval>)
    ensures Stamped(site, time).Some? ==> Stamped(site, time).value.site == site
  {
  }

  /** Only the site marker's own `_` can start a `_TIME:` inside the marker and a `_`-free site id. */
  lemma NoTimeMarkerBefore(site: string, rest: string, j: nat)
    requires '_' !in site
    requires j < |SiteMarker| + |site|
    ensures !OccursAt(SiteMarker + site + TimeMarker + rest, TimeMarker, j)
  {
    var buf := SiteMarker + site + TimeMarker + rest;
    assert buf[j] == (if j < |SiteMarker| then SiteMarker[j] else site[j - |SiteMarker|]);
    assert j == 9 ==> buf[j + 1] == 'S';
  }

  /** In a buffer laid out as the sender writes it, every search of the decoder lands where expected. */
  lemma LayoutSearches(site: string, rest: string, m: nat, q: nat)
    requires '_' !in site && NUL !in site && NUL !in rest && m == 0 && q == |SiteMarker| + |site|
    ensures var buf := SiteMarker + site + TimeMarker + rest;
            && NUL !in buf
            && Find(buf, SiteMarker) == Some(m)
            && Find(buf, TimeMarker) == Some(q)
            && FindChar(buf, '_', m + |SiteMarker|) == Some(q)
  {
    var buf := SiteMarker + site + TimeMarker + rest;
    assert NUL !in SiteMarker && NUL !in TimeMarker;
    assert buf[0..|SiteMarker|] == SiteMarker;
    FindIs(buf, SiteMarker, m);
    assert buf[q..q + |TimeMarker|] == TimeMarker;
    forall j | 0 <= j < q
      ensures !OccursAt(buf, TimeMarker, j)
    {
      NoTimeMarkerBefore(site, rest, j);
    }
    FindIs(buf, TimeMarker, q);
    forall j | m + |SiteMarker| <= j < q
      ensures buf[j] != '_'
    {
      assert buf[j] == site[j - |SiteMarker|];
    }
    FindCharIs(buf, '_', m + |SiteMarker|, q);
  }

  /** In the same layout, the site field is the site and the timestamp text is what follows the time marker. */
  lemma LayoutFields(site: string, rest: string, m: nat, q: nat, from: nat)
    requires '_' !in site && NUL !in site && NUL !in rest
    requires m == 0 && q == |SiteMarker| + |site| && from == q + |TimeMarker|
    ensures var buf := SiteMarker + site + TimeMarker + rest;
            && q < |buf| && buf[q] == '_' && NUL !in buf
            && (forall j :: m + |SiteMarker| <= j < q ==> buf[j] != '_')
            && from <= |buf| && buf[from..] == rest
            && SiteIdBetween(buf, m + |SiteMarker|, q) == SiteId(site)
  {
    var buf := SiteMarker + site + TimeMarker + rest;
    assert NUL !in SiteMarker && NUL !in TimeMarker;
    forall j | |SiteMarker| <= j < q
      ensures buf[j] != '_'
    {
      assert buf[j] == site[j - |SiteMarker|];
    }
    assert buf[from..] == rest;
    assert buf[|SiteMarker|..q] == site;
  }

  /**
   * A datagram laid out as `HEARTBEAT_SITE:<site>_TIME:<rest>` with a
   * `_`-free site decodes to the site's id and to whatever the C string of
   * `rest` scans as.
   */
  lemma DecodeLayout(site: string, rest: string)
    requires '_' !in site && NUL !in site
    ensures Decode(SiteMarker + site + TimeMarker + rest) == Stamped(SiteId(site), ScanTimestamp(CStr(rest)))
  {
    var m := 0;
    var q := |SiteMarker| + |site|;
    var from := q + |TimeMarker|;
    assert NUL !in SiteMarker && NUL !in TimeMarker;
    CStrAppend(SiteMarker + site + TimeMarker, rest);
    LayoutSearches(site, CStr(rest), m, q);
    LayoutFields(site, CStr(rest), m, q, from);
    DecodeFields(SiteMarker + site + TimeMarker + rest, m, q, q, from, SiteId(site), CStr(rest));
  }

  /** The numeric part of a payload holds digits, minus signs and a dot: never a NUL, never an `H`. */
  lemma NumbersHaveNoNul(tv: Timeval)
    ensures NUL !in Numbers(tv) && 'H' !in Numbers(tv)
  {
    var f := FormatLong(tv.sec);
    var fp := FormatPadded(tv.usec, UsecWidth);
    assert NUL !in f && NUL !in fp;
    assert 'H' !in f && 'H' !in fp;
  }

  /** An untruncated payload for a NUL-free site id is the marker, the id, the time marker and the numbers. */
  lemma EncodeLayout(site: string, tv: Timeval)
    requires NUL !in site
    requires |Payload(site, tv)| < SendBufferSize
    ensures Encode(site, tv) == SiteMarker + site + TimeMarker + Numbers(tv)
  {
    assert CStr(site) == site;
  }

  /**
   * Every heartbeat the sender formats without truncation, for a site id
   * with no `_` and no NUL, decodes to the id as the monitor stores it (cut
   * to 63 characters) and to the very same timestamp, whatever else the
   * datagram carries after it.
   */
  lemma DecodeEncode(site: string, tv: Timeval, tail: string)
    requires '_' !in site && NUL !in site
    requires -99999 <= tv.usec <= 999999
    requires |Payload(site, tv)| < SendBufferSize
    ensures Decode(Encode(site, tv) + tail) == Some(Heartbeat(SiteId(site), tv))
  {
    EncodeLayout(site, tv);
    AppendAssoc(SiteMarker + site + TimeMarker, Numbers(tv), tail);
    DecodeLayout(site, Numbers(tv) + tail);
    NumbersHaveNoNul(tv);
    CStrAppend(Numbers(tv), tail);
    ScanTimestampOf(tv, CStr(tail));
  }

  /** The round trip: a short enough, `_`-free site id and a real timestamp come back unchanged. */
  lemma RoundTrip(site: string, tv: Timeval)
    requires '_' !in site && NUL !in site && |site| < MaxSiteIdLen
    requires 0 <= tv.usec <= 999999
    requires |Payload(site, tv)| < SendBufferSize
    ensures Decode(Encode(site, tv)) == Some(Heartbeat(site, tv))
  {
    DecodeEncode(site, tv, []);
    assert Encode(site, tv) + [] == Encode(site, tv);
    assert CStr(site) == site;
  }

  /** Truncation, not rejection: a site id of 64 or more characters arrives as its first 63. */
  lemma LongSiteIdTruncated(site: string, tv: Timeval)
    requires '_' !in site && NUL !in site && MaxSiteIdLen <= |site|
    requires 0 <= tv.usec <= 999999
    requires |Payload(site, tv)| < SendBufferSize
    ensures Decode(Encode(site, tv)) == Some(Heartbeat(site[..MaxSiteIdLen - 1], tv))
  {
    DecodeEncode(site, tv, []);
    assert Encode(site, tv) + [] == Encode(site, tv);
    assert CStr(site) == site;
  }

  /** For a real microsecond count, 0 to 999999, the field is exactly six digits and they denote it. */
  lemma UsecFieldIsSixDigits(usec: int)
    requires 0 <= usec <= 999999
    ensures var u := FormatPadded(usec, UsecWidth);
            |u| == UsecWidth && AllDigits(u) && DigitsValue(u) == usec
  {
    assert Pow10(5) == 100000 && Pow10(6) == 1000000;
    FormatPaddedExact(usec, UsecWidth);
  }

  /** `ScanTimestamp` of two texts whose seconds scan alike and that agree on the dot and the microseconds. */
  lemma ScanTimestampSame(a: string, b: string, n: nat)
    requires ScanLong(a, |a|) == ScanLong(b, |b|)
    requires ScanLong(a, |a|).Some? ==> ScanLong(a, |a|).value.next == n
    requires (n < |a| && a[n] == '.') <==> (n < |b| && b[n] == '.')
    requires n < |a| && a[n] == '.' ==> ScanLong(a[n + 1..], UsecWidth) == ScanLong(b[n + 1..], UsecWidth)
    ensures ScanTimestamp(a) == ScanTimestamp(b)
  {
    match ScanLong(a, |a|)
    case None =>
    case Some(sec) => AfterSecondsSame(a, b, sec.value, n);
  }

  /** The part after the seconds agrees on two texts that agree on the dot and the microseconds. */
  lemma AfterSecondsSame(a: string, b: string, sec: int, n: nat)
    requires (n < |a| && a[n] == '.') <==> (n < |b| && b[n] == '.')
    requires n < |a| && a[n] == '.' ==> ScanLong(a[n + 1..], UsecWidth) == ScanLong(b[n + 1..], UsecWidth)
    ensures AfterSeconds(a, sec, n) == AfterSeconds(b, sec, n)
  {
  }

  /** The microseconds after a dot at `n` scan alike in a prefix that keeps the stopping character at `h`. */
  lemma UsecPrefix(x: string, q: nat, h: nat, n: nat)
    requires n < h < q <= |x| && Stops(x[h])
    ensures ScanLong(x[..q][n + 1..], UsecWidth) == ScanLong(x[n + 1..], UsecWidth)
  {
    assert x[..q][n + 1..] == x[n + 1..][..q - n - 1];
    ScanLongPrefix(x[n + 1..], q - n - 1, h - n - 1, UsecWidth, UsecWidth);
  }

  /** `sscanf("%ld.%06ld")` never reads past a character that stops both conversions and is not the dot. */
  lemma ScanTimestampPrefix(x: string, q: nat, h: nat)
    requires h < q <= |x| && Stops(x[h]) && x[h] != '.'
    ensures ScanTimestamp(x[..q]) == ScanTimestamp(x)
  {
    var y := x[..q];
    ScanLongPrefix(x, q, h, q, |x|);
    var sec := ScanLong(x, |x|);
    var n := if sec.Some? then sec.value.next else 0;
    assert n <= h && y[n] == x[n];
    if x[n] == '.' {
      UsecPrefix(x, q, h, n);
    }
    ScanTimestampSame(y, x, n);
  }

  /** An occurrence of the site marker and one of the time marker never overlap. */
  lemma MarkersApart(buf: string, s: nat, t: nat)
    requires OccursAt(buf, SiteMarker, s) && OccursAt(buf, TimeMarker, t)
    ensures t + |TimeMarker| <= s || s + |SiteMarker| <= t
  {
    assert forall j :: s <= j < s + |SiteMarker| ==> buf[j] == SiteMarker[j - s];
    assert forall j :: t <= j < t + |TimeMarker| ==> buf[j] == TimeMarker[j - t];
    assert buf[s] == 'H' && buf[t] == '_' && buf[t + 1] == 'T';
    // The site marker's only `_` is followed by `S`; the time marker has no `H`.
    assert forall d :: 0 <= d < |SiteMarker| && SiteMarker[d] == '_' ==> d == 9;
    assert SiteMarker[10] == 'S';
    assert forall d :: 0 <= d < |TimeMarker| ==> TimeMarker[d] != 'H';
  }

  /**
   * The NUL the decoder writes over the `_` that ends the site id never
   * changes what `sscanf` reads: either that `_` lies before the time
   * marker's text, or the site marker's `H` stops the scan before it.
   */
  lemma TimestampUncut(buf: string, m: nat, t: nat, p: nat)
    requires Find(buf, SiteMarker) == Some(m) && Find(buf, TimeMarker) == Some(t)
    requires FindChar(buf, '_', m + |SiteMarker|) == Some(p)
    ensures ScanTimestamp(TimestampText(buf, t, p)) == ScanTimestamp(buf[t + |TimeMarker|..])
  {
    MarkersApart(buf, m, t);
    if m + |SiteMarker| <= t {
      assert buf[t] == TimeMarker[0];
      CutBeforeTimestamp(buf, t, p);
    } else {
      assert buf[m] == SiteMarker[0];
      CutAfterSiteMarker(buf, m, t, p);
    }
  }

  /** A cut at or before the end of the time marker leaves the text after it whole. */
  lemma CutBeforeTimestamp(buf: string, t: nat, p: nat)
    requires t + |TimeMarker| <= |buf| && p <= t
    ensures TimestampText(buf, t, p) == buf[t + |TimeMarker|..]
  {
  }

  /** A cut after an `H` that follows the time marker's text does not change the scan. */
  lemma CutAfterSiteMarker(buf: string, m: nat, t: nat, p: nat)
    requires t + |TimeMarker| <= m < p <= |buf| && buf[m] == 'H'
    ensures ScanTimestamp(TimestampText(buf, t, p)) == ScanTimestamp(buf[t + |TimeMarker|..])
  {
    ScanTimestampCut(buf[t + |TimeMarker|..], TimestampText(buf, t, p), p - (t + |TimeMarker|), m - (t + |TimeMarker|));
  }

  /** The same cut, stated on the text after the time marker. */
  lemma ScanTimestampCut(x: string, y: string, q: nat, h: nat)
    requires h < q <= |x| && x[h] == 'H' && y == x[..q]
    ensures ScanTimestamp(y) == ScanTimestamp(x)
  {
    ScanTimestampPrefix(x, q, h);
  }

  /**
   * Decoding once both markers and the `_` after the site marker are found:
   * the heartbeat carries the site id up to that `_` and whatever the whole
   * text after the time marker scans as, and is dropped when it does not scan.
   */
  lemma DecodeExactly(data: string, m: nat, t: nat, p: nat)
    requires Find(CStr(data), SiteMarker) == Some(m)
    requires Find(CStr(data), TimeMarker) == Some(t)
    requires FindChar(CStr(data), '_', m + |SiteMarker|) == Some(p)
    ensures Decode(data)
         == Stamped(SiteIdBetween(CStr(data), m + |SiteMarker|, p), ScanTimestamp(CStr(data)[t + |TimeMarker|..]))
  {
    DecodeOf(data, m, t, p);
    TimestampUncut(CStr(data), m, t, p);
  }

  /**
   * `DecodeExactly` with every position, the site id and the timestamp text
   * given by name, so that callers can supply them in their own terms.
   */
  lemma DecodeFields(data: string, m: nat, t: nat, p: nat, from: nat, id: string, text: string)
    requires from == t + |TimeMarker|
    requires Find(CStr(data), SiteMarker) == Some(m)
    requires Find(CStr(data), TimeMarker) == Some(t)
    requires FindChar(CStr(data), '_', m + |SiteMarker|) == Some(p)
    requires id == SiteIdBetween(CStr(data), m + |SiteMarker|, p)
    requires from <= |CStr(data)| && text == CStr(data)[from..]
    ensures Decode(data)
         == Stamped(id, ScanTimestamp(text))
  {
    DecodeExactly(data, m, t, p);
  }

  /** A datagram whose text after the first time marker does not scan as `%ld.%06ld` is dropped. */
  lemma BadTimestampDropped(data: string, t: nat)
    requires Find(CStr(data), TimeMarker) == Some(t)
    requires ScanTimestamp(CStr(data)[t + |TimeMarker|..]).None?
    ensures Decode(data).None?
  {
    match Find(CStr(data), SiteMarker)
    case None =>
    case Some(m) =>
      match FindChar(CStr(data), '_', m + |SiteMarker|)
      case None =>
      case Some(p) => DecodeExactly(data, m, t, p);
  }

  /** A datagram with no `_` anywhere after its first site marker is dropped. */
  lemma UnterminatedSiteDropped(data: string, m: nat)
    requires Find(CStr(data), SiteMarker) == Some(m)
    requires forall j :: m + |SiteMarker| <= j < |CStr(data)| ==> CStr(data)[j] != '_'
    ensures Decode(data).None?
  {
  }

  /**
   * A buffer with the time marker first: `_TIME:<num>HEARTBEAT_SITE:<site>_`.
   * The searches start at the beginning of the buffer, so both markers are
   * still found.
   */
  lemma ReversedLayout(num: string, site: string, m: nat, start: nat, p: nat)
    requires 'H' !in num && NUL !in num && '_' !in site && NUL !in site
    requires m == |TimeMarker| + |num| && start == m + |SiteMarker| && p == start + |site|
    ensures var buf := TimeMarker + num + SiteMarker + site + "_";
            && NUL !in buf
            && Find(buf, TimeMarker) == Some(0)
            && Find(buf, SiteMarker) == Some(m)
            && FindChar(buf, '_', start) == Some(p)
  {
    assert (TimeMarker + num + SiteMarker + site + "_")[0..|TimeMarker|] == TimeMarker;
    FindIs(TimeMarker + num + SiteMarker + site + "_", TimeMarker, 0);
    assert 'H' !in TimeMarker && NUL !in TimeMarker && NUL !in SiteMarker;
    SiteMarkerAfter(TimeMarker + num, site, m);
    IdEndAfter(TimeMarker + num + SiteMarker, site, start, p);
  }

  /** The site marker right after an `H`-free head is the first one. */
  lemma SiteMarkerAfter(head: string, site: string, m: nat)
    requires 'H' !in head && m == |head|
    ensures Find(head + SiteMarker + site + "_", SiteMarker) == Some(m)
  {
    var buf := head + SiteMarker + site + "_";
    assert buf[m..m + |SiteMarker|] == SiteMarker;
    forall j | 0 <= j < m
      ensures !OccursAt(buf, SiteMarker, j)
    {
      assert buf[j] == head[j];
    }
    FindIs(buf, SiteMarker, m);
  }

  /** The `_` right after a `_`-free site is the first one after its start. */
  lemma IdEndAfter(prefix: string, site: string, start: nat, p: nat)
    requires '_' !in site && start == |prefix| && p == start + |site|
    ensures FindChar(prefix + site + "_", '_', start) == Some(p)
  {
    var buf := prefix + site + "_";
    forall j | start <= j < p
      ensures buf[j] != '_'
    {
      assert buf[j] == site[j - start];
    }
    FindCharIs(buf, '_', start, p);
  }

  /** In the same layout the site field is the site and the text after the time marker starts with `num`. */
  lemma ReversedFields(num: string, site: string, start: nat, p: nat)
    requires 'H' !in num && NUL !in num && '_' !in site && NUL !in site
    requires start == |TimeMarker| + |num| + |SiteMarker| && p == start + |site|
    ensures var buf := TimeMarker + num + SiteMarker + site + "_";
            && NUL !in buf && p < |buf| && buf[p] == '_'
            && (forall j :: start <= j < p ==> buf[j] != '_')
            && buf[|TimeMarker|..] == num + (SiteMarker + site + "_")
            && SiteIdBetween(buf, start, p) == SiteId(site)
  {
    assert NUL !in TimeMarker && NUL !in SiteMarker;
    IdBetweenIsSite(TimeMarker + num + SiteMarker, site, start, p);
    DropHead(TimeMarker, num, SiteMarker, site, "_");
  }

  /** Dropping the head of a five-part concatenation leaves the other four parts. */
  lemma DropHead<T>(a: seq<T>, b: seq<T>, c: seq<T>, d: seq<T>, e: seq<T>)
    ensures (a + b + c + d + e)[|a|..] == b + (c + d + e)
  {
    assert (a + b + c + d + e)[|a|..] == b + c + d + e;
  }

  /** A `_`-free site between a NUL-free prefix and a `_` is read back as that site's id. */
  lemma IdBetweenIsSite(prefix: string, site: string, start: nat, p: nat)
    requires NUL !in prefix && NUL !in site && '_' !in site
    requires start == |prefix| && p == start + |site|
    ensures var buf := prefix + site + "_";
            && NUL !in buf && p < |buf| && buf[p] == '_'
            && (forall j :: start <= j < p ==> buf[j] != '_')
            && SiteIdBetween(buf, start, p) == SiteId(site)
  {
    var buf := prefix + site + "_";
    forall j | start <= j < p
      ensures buf[j] != '_'
    {
      assert buf[j] == site[j - start];
    }
    assert buf[start..p] == site;
  }

  /**
   * The time marker is searched from the start of the buffer, not after the
   * site marker: a datagram that carries its time before its site is
   * accepted all the same.
   */
  lemma TimeMarkerFirstAccepted(site: string, tv: Timeval)
    requires '_' !in site && NUL !in site
    requires -99999 <= tv.usec <= 999999
    ensures Decode(TimeMarker + Numbers(tv) + SiteMarker + site + "_") == Some(Heartbeat(SiteId(site), tv))
  {
    NumbersHaveNoNul(tv);
    ReversedDecode(Numbers(tv), site);
    ScanTimestampOf(tv, SiteMarker + site + "_");
  }

  /** With the time marker first, the id is still found and the scan reads the whole text after the time marker. */
  lemma ReversedDecode(num: string, site: string)
    requires 'H' !in num && NUL !in num && '_' !in site && NUL !in site
    ensures Decode(TimeMarker + num + SiteMarker + site + "_")
         == Stamped(SiteId(site), ScanTimestamp(num + (SiteMarker + site + "_")))
  {
    var m := |TimeMarker| + |num|;
    var start := m + |SiteMarker|;
    var p := start + |site|;
    ReversedLayout(num, site, m, start, p);
    ReversedFields(num, site, start, p);
    CStrWhole(TimeMarker + num + SiteMarker + site + "_");
    DecodeFields(TimeMarker + num + SiteMarker + site + "_", m, 0, p, |TimeMarker|,
                 SiteId(site), num + (SiteMarker + site + "_"));
  }

  /** A payload cut inside the site id is the site marker and the first part of the id. */
  lemma EncodeCutInSite(site: string, tv: Timeval)
    requires NUL !in site
    requires SendBufferSize - 1 <= |SiteMarker| + |site|
    ensures Encode(site, tv) == (SiteMarker + site)[..SendBufferSize - 1]
  {
    assert CStr(site) == site;
    PrefixOfLonger(SiteMarker + site, TimeMarker + Numbers(tv), SendBufferSize - 1);
  }

  /** Regroups the left-nested `(a + b) + c` as the right-nested `a + (b + c)`. */
  lemma AppendAssoc(a: string, b: string, c: string)
    ensures (a + b) + c == a + (b + c)
  {
  }

  /** A prefix no longer than `a` of `a + b` is the same prefix of `a`. */
  lemma PrefixOfLonger(a: string, b: string, k: nat)
    requires k <= |a|
    ensures (a + b)[..k] == a[..k]
  {
  }

  /** No prefix of the site marker followed by an id without the time marker holds the time marker. */
  lemma NoTimeMarkerInSitePrefix(site: string, k: nat, i: nat)
    requires forall j :: !OccursAt(site, TimeMarker, j)
    requires k <= |SiteMarker| + |site|
    ensures !OccursAt((SiteMarker + site)[..k], TimeMarker, i)
  {
    var h := (SiteMarker + site)[..k];
    if i + |TimeMarker| <= k {
      if i < |SiteMarker| {
        assert h[i] == SiteMarker[i];
        assert i == 9 ==> h[i + 1] == 'S';
      } else {
        var j := i - |SiteMarker|;
        assert h[i..i + |TimeMarker|] == site[j..j + |TimeMarker|];
        assert !OccursAt(site, TimeMarker, j);
      }
    }
  }

  /**
   * The sender does not limit the site id: one without `_TIME:` so long
   * that `snprintf` cuts the payload before the time marker yields
   * datagrams the monitor always drops. A cut further on is no safer:
   * see `TimeMarkerCutDropped`, `SecondsCutDropped` and `UsecCutMisread`.
   */
  lemma OverlongSiteIdDropped(site: string, tv: Timeval)
    requires (forall j :: !OccursAt(site, TimeMarker, j)) && NUL !in site
    requires SendBufferSize - 1 <= |SiteMarker| + |site|
    ensures Decode(Encode(site, tv)).None?
  {
    EncodeCutInSite(site, tv);
    var r := Encode(site, tv);
    assert NUL !in SiteMarker + site;
    assert NUL !in r;
    assert CStr(r) == r;
    forall i | 0 <= i
      ensures !OccursAt(r, TimeMarker, i)
    {
      NoTimeMarkerInSitePrefix(site, SendBufferSize - 1, i);
    }
  }

  /** A `_`-free id whose payload is cut inside the time marker: the datagram is always dropped. */
  lemma TimeMarkerCutDropped(site: string, tv: Timeval)
    requires '_' !in site && NUL !in site
    requires |SiteMarker| + |site| < SendBufferSize - 1 < |SiteMarker| + |site| + |TimeMarker|
    ensures Decode(Encode(site, tv)).None?
  {
    TimeMarkerCut(site, tv);
    CStrWhole(Encode(site, tv));
    DecodeNeedsTimeMarker(Encode(site, tv));
  }

  /** A payload cut inside the time marker, for a `_`-free id, is NUL-free and holds no time marker. */
  lemma TimeMarkerCut(site: string, tv: Timeval)
    requires '_' !in site && NUL !in site
    requires |SiteMarker| + |site| < SendBufferSize - 1 < |SiteMarker| + |site| + |TimeMarker|
    ensures NUL !in Encode(site, tv)
    ensures forall i :: !OccursAt(Encode(site, tv), TimeMarker, i)
  {
    assert CStr(site) == site;
    CutMarkerAbsent(site, Numbers(tv), Encode(site, tv), SendBufferSize - 1);
  }

  /** A cut of `<site marker><site>_TIME:<rest>` before the end of its time marker holds no time marker when the site has no `_`. */
  lemma CutMarkerAbsent(site: string, rest: string, r: string, k: nat)
    requires '_' !in site && k < |SiteMarker| + |site| + |TimeMarker|
    requires r <= SiteMarker + site + TimeMarker + rest && |r| == k
    ensures forall i :: !OccursAt(r, TimeMarker, i)
  {
    var full := SiteMarker + site + TimeMarker + rest;
    forall i | 0 <= i
      ensures !OccursAt(r, TimeMarker, i)
    {
      if i + |TimeMarker| <= |r| {
        assert r[i..i + |TimeMarker|] == full[i..i + |TimeMarker|];
        NoTimeMarkerBefore(site, rest, i);
      }
    }
  }

  /** A payload cut after the time marker: the marker, the id, the time marker and the first `k` characters of the numbers. */
  lemma EncodeCutInNumbers(site: string, tv: Timeval, k: nat)
    requires NUL !in site
    requires |SiteMarker| + |site| + |TimeMarker| + k == SendBufferSize - 1 && k < |Numbers(tv)|
    ensures Encode(site, tv) == SiteMarker + site + TimeMarker + Numbers(tv)[..k]
  {
    assert CStr(site) == site;
    var h := SiteMarker + site + TimeMarker;
    assert (h + Numbers(tv))[..SendBufferSize - 1] == h + Numbers(tv)[..k];
  }

  /**
   * A `_`-free id whose payload is cut after the time marker, `k`
   * characters into the numbers, decodes to the stored id and to whatever
   * those `k` characters scan as.
   */
  lemma TimestampCutDecoded(site: string, tv: Timeval, k: nat)
    requires '_' !in site && NUL !in site
    requires |SiteMarker| + |site| + |TimeMarker| + k == SendBufferSize - 1 && k < |Numbers(tv)|
    ensures Decode(Encode(site, tv)) == Stamped(SiteId(site), ScanTimestamp(Numbers(tv)[..k]))
  {
    EncodeCutInNumbers(site, tv, k);
    NumbersHaveNoNul(tv);
    var kept := Numbers(tv)[..k];
    assert NUL !in kept;
    CStrWhole(kept);
    DecodeLayout(site, kept);
  }

  /** A `_`-free id whose payload is cut inside the seconds or right after the dot: the datagram is always dropped. */
  lemma SecondsCutDropped(site: string, tv: Timeval, k: nat)
    requires '_' !in site && NUL !in site
    requires |SiteMarker| + |site| + |TimeMarker| + k == SendBufferSize - 1
    requires k <= |FormatLong(tv.sec)| + 1
    ensures Decode(Encode(site, tv)).None?
  {
    SecondsCutUnscanned(tv, k);
    TimestampCutDecoded(site, tv, k);
  }

  /** The numbers cut inside the seconds or right after the dot do not scan. */
  lemma SecondsCutUnscanned(tv: Timeval, k: nat)
    requires k <= |FormatLong(tv.sec)| + 1
    ensures k < |Numbers(tv)| && ScanTimestamp(Numbers(tv)[..k]).None?
  {
    var f := FormatLong(tv.sec);
    var text := Numbers(tv)[..k];
    if k <= |f| {
      assert forall i :: 0 <= i < |text| ==> text[i] == f[i];
      NoDotUnscanned(text);
    } else {
      assert text == f + ['.'];
      ScanFormatLong(tv.sec, ['.']);
      DotLastUnscanned(f, tv.sec);
    }
  }

  /** A text without a dot does not scan as `%ld.%06ld`. */
  lemma NoDotUnscanned(text: string)
    requires forall i :: 0 <= i < |text| ==> text[i] != '.'
    ensures ScanTimestamp(text).None?
  {
  }

  /** Seconds followed by a dot and nothing more do not scan as `%ld.%06ld`. */
  lemma DotLastUnscanned(f: string, sec: int)
    requires ScanLong(f + ['.'], |f + ['.']|) == Some(Scanned(sec, |f|))
    ensures ScanTimestamp(f + ['.']).None?
  {
    assert (f + ['.'])[|f| + 1..] == [];
  }

  /**
   * A `_`-free id whose payload is cut after `j` of the six microsecond
   * digits: the datagram is accepted, with the microseconds that remain,
   * which is a wrong time unless the microseconds were zero.
   */
  lemma UsecCutMisread(site: string, tv: Timeval, j: nat)
    requires '_' !in site && NUL !in site && 0 <= tv.usec <= 999999
    requires |SiteMarker| + |site| + |TimeMarker| + |FormatLong(tv.sec)| + 1 + j == SendBufferSize - 1
    requires 0 < j < UsecWidth
    ensures Decode(Encode(site, tv)) == Some(Heartbeat(SiteId(site), Timeval(tv.sec, tv.usec / Pow10(UsecWidth - j))))
    ensures tv.usec != 0 ==> Decode(Encode(site, tv)) != Some(Heartbeat(SiteId(site), tv))
  {
    UsecCutStamped(SiteId(site), tv, j);
    TimestampCutDecoded(site, tv, |FormatLong(tv.sec)| + 1 + j);
  }

  /** The stamp a cut after `j` microsecond digits gives: the remaining digits, a wrong time unless they were all zero. */
  lemma UsecCutStamped(id: string, tv: Timeval, j: nat)
    requires 0 <= tv.usec <= 999999 && 0 < j < UsecWidth
    ensures |FormatLong(tv.sec)| + 1 + j < |Numbers(tv)|
    ensures Stamped(id, ScanTimestamp(Numbers(tv)[..|FormatLong(tv.sec)| + 1 + j]))
         == Some(Heartbeat(id, Timeval(tv.sec, tv.usec / Pow10(UsecWidth - j))))
    ensures tv.usec != 0 ==> Timeval(tv.sec, tv.usec / Pow10(UsecWidth - j)) != tv
  {
    UsecCutScan(tv, j);
    if tv.usec != 0 {
      ShiftedSmaller(tv.usec, UsecWidth - j);
    }
  }

  /** The numbers cut after `j` microsecond digits scan as the seconds and the microseconds those digits denote. */
  lemma UsecCutScan(tv: Timeval, j: nat)
    requires 0 <= tv.usec <= 999999 && 0 < j < UsecWidth
    ensures |FormatLong(tv.sec)| + 1 + j < |Numbers(tv)|
    ensures ScanTimestamp(Numbers(tv)[..|FormatLong(tv.sec)| + 1 + j]) == Some(Timeval(tv.sec, tv.usec / Pow10(UsecWidth - j)))
  {
    var u := FormatPadded(tv.usec, UsecWidth);
    UsecFieldIsSixDigits(tv.usec);
    DigitsPrefixValue(u, j);
    assert Pow10(|u| - j) == Pow10(UsecWidth - j);
    UsecDigitsScan(tv, j, u[..j]);
  }

  /** The same scan, with the microsecond digits that were kept given by name. */
  lemma UsecDigitsScan(tv: Timeval, j: nat, ds: string)
    requires 0 <= tv.usec <= 999999 && 0 < j < UsecWidth
    requires ds == FormatPadded(tv.usec, UsecWidth)[..j] && AllDigits(ds)
    ensures |FormatLong(tv.sec)| + 1 + j < |Numbers(tv)|
    ensures ScanTimestamp(Numbers(tv)[..|FormatLong(tv.sec)| + 1 + j]) == Some(Timeval(tv.sec, DigitsValue(ds)))
  {
    var f := FormatLong(tv.sec);
    var u := FormatPadded(tv.usec, UsecWidth);
    UsecFieldIsSixDigits(tv.usec);
    KeepThroughDot(f, u, j);
    ScanFormatLong(tv.sec, ['.'] + ds);
    DotDigitsScan(f, ds, tv.sec);
  }

  /** Keeping `j` characters after the dot of `<f>.<u>` keeps `f`, the dot and the first `j` characters of `u`. */
  lemma KeepThroughDot(f: string, u: string, j: nat)
    requires j <= |u|
    ensures |f| + 1 + j <= |f + "." + u|
    ensures (f + "." + u)[..|f| + 1 + j] == f + (['.'] + u[..j])
  {
  }

  /** Seconds read up to a dot, then one to six digits: the scan gives those seconds and the value of the digits. */
  lemma DotDigitsScan(f: string, ds: string, sec: int)
    requires AllDigits(ds) && 1 <= |ds| <= UsecWidth
    requires ScanLong(f + (['.'] + ds), |f + (['.'] + ds)|) == Some(Scanned(sec, |f|))
    ensures ScanTimestamp(f + (['.'] + ds)) == Some(Timeval(sec, DigitsValue(ds)))
  {
    ScanUnsigned(ds, [], UsecWidth);
    assert ds + [] == ds;
    AfterDot(f, ds);
  }
}

=== FILE: wrappers.dfy ===
/** The optional-value datatype the model uses for C's NULL returns and "no result" cases. */
module Wrappers {

  datatype Option<+T> = None | Some(value: T)

}
